=== FILE: README.md ===
# Guideline-answering workflow: a Dafny model of its text and selection logic

The workflow answers a patient's health question in three steps. It reads a
catalog of *prompt frameworks* and picks the one whose name best matches the
query. It asks a language model which clinical *guideline files* are relevant,
then normalises that reply into a list of file names. Finally it downloads those
files through a per-session cache and assembles their text into the prompt.
This project models the deterministic logic between those network calls, all of
it from `workflow.py`, as pure Dafny functions and small loop methods.

| file | module | what it holds |
|---|---|---|
| `Wrappers.dfy` | `Wrappers` | `Option` (Python `None` or a raised error) and `Result` (a fallible download) |
| `Seqs.dfy` | `Seqs` | `FilterMap`: the "for x in xs: if ok(x): append g(x)" shape every loop here has, with its order and completeness lemmas |
| `Text.dfy` | `Text` | Python `str.find`, `split`, `split(sep, 1)`, `replace` and `strip()` (with Python's whitespace set), plus the non-greedy `\[.*?\]` search |
| `Json.dfy` | `Json` | the value `json.loads` returns, Python truthiness, dict lookup, iteration, and the dict-flattening loop both normalisers share |
| `Frameworks.dfy` | `Frameworks` | `load_frameworks` parsing, a renderer for the catalog format with a round-trip proof, and `choose_best_framework` |
| `Selection.dfy` | `Selection` | the selector reply's parse chain, shape normaliser and `filename_list[:3]` fallbacks, both as written and as intended (see "## Findings") |
| `Guidelines.dfy` | `Guidelines` | the `load_guideline_contents` normaliser and the cache fill, both as a recursive reference definition and as the loop |
| `Assembly.dfy` | `Assembly` | the guideline-text assembly loop and the whole selection → cache → text path |

Behaviour of the code worth knowing before reading the model:

- The `load_guideline_contents` normaliser tests truthiness before it strips,
  so an item such as `"  "` becomes `""`. A dict whose `"files"` value is
  `null`, a boolean or a number raises TypeError, modelled as `None`.
- A reply that is not JSON falls back to "the first three known names". That
  holds exactly only when those names are non-empty. Otherwise the empty ones
  are filtered out and, if none is left, the fallback list is used again
  unfiltered.
- A selector reply that parses to a dict without a list under `"files"`
  raises AttributeError at workflow.py:321-322, and nothing is loaded. The
  whole-path method `Assembly.GatherGuidelines` follows the code as written;
  the selection lemmas are stated about the intended normaliser, which
  flattens such a dict, and `Selection.SelectGuidelinesAsWritten` equals it
  on every reply that does not raise.
- An empty framework catalog makes `frameworks[0]` raise IndexError. This is
  modelled as a `None` result, not as a precondition.

A consequence the model makes visible (`Assembly.PaddedNameSkipped`): a selected
name with surrounding whitespace is requested stripped, so the file is loaded
under the stripped name (and downloaded, unless that name was cached already).
The assembly loop then looks up the name as written and emits no section for it.

## Model

| member | source | states |
|---|---|---|
| Seqs.FilterMapPlaces | workflow.py:170 | a kept item lands at the position equal to the number of kept items before it, so comprehensions keep input order and lose nothing they accept |
| Seqs.FilterMapOrdered | workflow.py:336 | of two accepted items, the later one lands strictly later in the output |
| Seqs.FilterMapSources | workflow.py:336 | every output element is the image of some input element the filter accepted |
| Text.Split | workflow.py:89 | at least one part; no part contains the separator; joining the parts with the separator gives back the text; the first cut is at the leftmost occurrence |
| Text.SplitOnce | workflow.py:92 | `None` exactly when the separator is absent; otherwise head, separator and tail rebuild the text and no occurrence starts inside the head |
| Text.Replace | workflow.py:95-97 | text without the pattern is returned unchanged, as is any text when the replacement equals the pattern |
| Text.Strip | workflow.py:94 | the result has no leading or trailing whitespace and is no longer than the input |
| Text.StripCutsSpace | workflow.py:94 | the result is a slice of the input, and only whitespace is cut from either end |
| Text.StripPadded | workflow.py:97 | whitespace padding around a stripped text is removed exactly |
| Text.StripIdempotent | workflow.py:170 | stripping a second time changes nothing |
| Text.FirstBracketed | workflow.py:303 | `None` exactly when no `[` has a `]` after it; otherwise a slice with no `[` before it that starts with `[`, ends with `]` and has no `]` inside |
| Json.Lookup | workflow.py:152-153 | `None` exactly when no field has the key; otherwise the value of a field with that key |
| Json.FlattenValues | workflow.py:155-162 | every element comes from a list value or is a string value; every string value and every list value's element is included |
| Json.FlattenAppend | workflow.py:157-161 | flattening a dict's fields distributes over concatenation, so values are taken in field order |
| Json.Iterate | workflow.py:170 | a list yields its items, a string its characters, a dict its keys, and `null`, booleans and numbers raise |
| Json.TextIfTruthy | workflow.py:170 | an item is dropped exactly when it is falsy |
| Json.FalsyValues | workflow.py:170 | the falsy values are exactly `None`, `False`, zero, `""`, `[]` and `{}` |
| Json.ToText | workflow.py:170 | the text of a string is empty exactly when the string is falsy |
| Json.KeptSources | workflow.py:170 | every kept text is the text of a truthy item at that position or later |
| Json.KeptListed | workflow.py:336 | on a list of strings, the truthiness filter drops exactly the empty strings and keeps the rest in order |
| Json.KeptKeepsOrder | workflow.py:170 | the truthiness filter keeps order: a truthy item's text sits after exactly the truthy items before it |
| Frameworks.ParseBlock | workflow.py:92-100 | `None` exactly when the block lacks `---`; both fields are stripped; the name contains no `---` |
| Frameworks.ParseBlockAt | workflow.py:92-97 | the name is the stripped text before the block's first `---`; the content is the stripped remainder with end markers removed |
| Frameworks.ParseFrameworks | workflow.py:88 | a missing catalog text gives no frameworks |
| Frameworks.ParsedFrameworksClean | workflow.py:94-97 | every parsed framework has stripped fields and a name without `---` |
| Frameworks.AtMostOnePerMarker | workflow.py:89-90 | there are at most as many frameworks as start markers |
| Frameworks.NoMarkerNoFrameworks | workflow.py:89-90 | text with no start marker holds no frameworks |
| Frameworks.PreambleIgnored | workflow.py:89-90 | text before the first start marker does not affect the result |
| Frameworks.MalformedBlockSkipped | workflow.py:91-100 | a block without `---` is skipped and its neighbours are parsed as if it were absent |
| Frameworks.RoundTrip | workflow.py:88-98 | parsing a rendered catalog, after any preamble without a start marker, gives back exactly the rendered frameworks |
| Frameworks.ChooseBestFramework | workflow.py:117-127 | `None` exactly for an empty catalog; otherwise the framework at the first index with the highest score |
| Frameworks.FirstBestUnique | workflow.py:122-124 | the first highest-scoring index is unique, so the choice is determined by the scores |
| Frameworks.ExactNameWins | workflow.py:120-124 | if a name equals the query and an exact match scores 100, the choice scores 100 and comes no later than that name |
| Selection.Fallback | workflow.py:310 | the result is the prefix of the catalog names of length min(3, catalog size), empty only for an empty catalog |
| Selection.Decode | workflow.py:294-313 | a reply that parses is used as is; any other outcome is either the parsed first bracketed slice or the fallback list |
| Selection.SelectorItems | workflow.py:316-333 | the intended normaliser: a list is kept and a string wrapped; scalars give the fallback names; a dict's items come from its list and string values |
| Selection.SelectorItemsAsWritten | workflow.py:316-333 | raises exactly for a dict without a list under `"files"`; on every other value it agrees with the intended normaliser |
| Selection.Normalise | workflow.py:336-341 | non-empty whenever the catalog is; equals the kept string forms whenever any survive, and exactly `filename_list[:3]` when none does |
| Selection.SelectGuidelines | workflow.py:294-341 | the intended selection is non-empty whenever the catalog is |
| Selection.SelectGuidelinesAsWritten | workflow.py:294-341 | raises exactly when the decoded reply is a dict without a list under `"files"`; otherwise it is the intended selection, non-empty whenever the catalog is |
| Selection.EmptyDictReplyRaises | workflow.py:316-341 | a reply of `{}` raises as written, where the intended normaliser selects exactly `filename_list[:3]` |
| Selection.FilesNotListRaises | workflow.py:319-322 | every dict reply without a list under `"files"` raises as written |
| Selection.SelectionSources | workflow.py:316-341 | every selected name is a fallback name or the string form of a truthy item of the normalised reply |
| Selection.DirectListKept | workflow.py:297 | a reply that is a JSON list of non-empty names is selected exactly as written |
| Selection.BracketRescue | workflow.py:303-307 | when only the first bracketed slice parses, the selection is what a reply of that slice alone gives |
| Selection.UnparseableFallsBack | workflow.py:308-313 | when neither parse succeeds every selected name is a fallback name, and the selection is exactly the fallback when those names are non-empty |
| Selection.ScalarFallsBack | workflow.py:331-333 | when the catalog names are non-empty, a reply that parses to `null`, a boolean or a number selects exactly the fallback names |
| Selection.FilesListWins | workflow.py:317-318 | a dict whose `"files"` is a list is reduced to that list |
| Selection.FilesNotListFlattened | workflow.py:319-326 | as intended, a dict whose `"files"` is missing or not a list has all its values flattened |
| Selection.NormaliseIdempotent | workflow.py:336-341 | when the catalog names are non-empty and `str()` never yields `""`, normalising the selection again, as a JSON list, gives the same selection |
| Selection.KeptNonEmpty | workflow.py:336 | every kept item converts to a non-empty string |
| Selection.BracketedAt | workflow.py:303 | the slice found is the one from the leftmost `[` to the first `]` after it |
| Selection.NoBracketInPlainText | workflow.py:303 | any reply without `[` has no bracketed slice |
| Selection.CloseBeforeOpen | workflow.py:303 | a reply whose every `]` comes before every `[` has no bracketed slice |
| Guidelines.RequestItems | workflow.py:144-166 | raises exactly when `"files"` cannot be iterated; a list is kept, a string wrapped, `None` and other scalars give nothing; a dict's `"files"` value is iterated as it is (items, characters or keys); a dict without `"files"` gives its flattened values |
| Guidelines.NormaliseRequest | workflow.py:144-170 | fails exactly when `"files"` holds `null`, a boolean or a number; otherwise every name is stripped |
| Guidelines.RequestSources | workflow.py:170 | every requested name is the stripped text of a truthy item, so nothing is invented |
| Guidelines.RequestOfList | workflow.py:170 | a list of names loses its empty names and the rest are stripped in order |
| Guidelines.RequestOfCleanList | workflow.py:170 | a list of non-empty stripped names is requested exactly as given |
| Guidelines.RequestOfScalar | workflow.py:144-170 | `None`, booleans and numbers request nothing; a non-empty string requests itself stripped |
| Guidelines.RequestOfFilesString | workflow.py:152-153 | a string under `"files"` requests its characters one by one, each stripped |
| Guidelines.RequestOfPlainDict | workflow.py:154-162 | a dict without `"files"` requests its flattened values, filtered and stripped |
| Guidelines.RequestKeepsOrder | workflow.py:170 | a truthy item lands, stripped, after exactly the truthy items before it |
| Guidelines.Downloaded | workflow.py:206-213 | a successful download is stored as its text; a failure as `Error: ` followed by the error message, which can be read back |
| Guidelines.FirstNamed | workflow.py:200-201 | `None` exactly when no catalog entry has the name; otherwise the first entry with it |
| Guidelines.FillCache | workflow.py:200-213 | no cached entry changes; a name ends up cached exactly when it was already cached or is both requested and in the catalog |
| Guidelines.FillValue | workflow.py:203-213 | a newly cached name holds the download, or its `Error: ` text, from the first catalog entry with that name |
| Guidelines.FillFetched | workflow.py:204-207 | names are downloaded exactly when they are newly cached |
| Guidelines.FillFetchesOnce | workflow.py:204-207 | no name is downloaded twice, even when the catalog lists it twice |
| Guidelines.FillNoOp | workflow.py:203-210 | when every requested catalog name is already cached, nothing changes and nothing is downloaded |
| Guidelines.FillTwice | workflow.py:203-210 | a second fill with the same request downloads nothing, whatever the service answers |
| Guidelines.FillLoop | workflow.py:200-215 | the loop computes the same cache and download log as the recursive definition |
| Guidelines.LoadGuidelineContents | workflow.py:144-215 | fails exactly when normalisation fails; with the service down or an empty catalog nothing is downloaded and the cache is returned unchanged; otherwise the fill |
| Assembly.SectionParts | workflow.py:354 | a section is the header, the name, a newline and the text, at those positions |
| Assembly.SectionInjective | workflow.py:354 | for names without line breaks, a section determines its name and its text |
| Assembly.TextAppendName | workflow.py:352-354 | one more selected name appends its section, or nothing when its content is absent |
| Assembly.SectionsInOrder | workflow.py:352-354 | every present name gets its section, after exactly the sections of the present names selected before it |
| Assembly.SectionsFromSelection | workflow.py:352-354 | every section is a selected name paired with its loaded content |
| Assembly.AbsentSkipped | workflow.py:353 | a selected name without content contributes nothing |
| Assembly.AllPresent | workflow.py:352-354 | when every name is present there is one section per name in order, duplicates repeated |
| Assembly.NonePresent | workflow.py:351-354 | when no name is present the text is empty |
| Assembly.AssembleGuidelineText | workflow.py:351-354 | the loop produces the sections' concatenation in selection order |
| Assembly.GatherGuidelines | workflow.py:193-354 | a dict reply without a list under `"files"` raises before anything is loaded: the cache is unchanged and nothing is downloaded; otherwise a non-empty listing gives a non-empty selection; the cache only grows; with the service up the contents and download log are the cache fill for the stripped non-empty selection, each name downloaded at most once, and every stripped non-empty selected name the loader's listing holds is loaded; with the service down nothing changes or is downloaded; the text is assembled from that selection |
| Assembly.PaddedNameSkipped | workflow.py:353 | a padded selected name has its stripped name loaded but gets no section of its own |
| Assembly.PaddedNameDownloaded | workflow.py:204-207 | the stripped form (line 170) of a padded selected name is downloaded, unless it was cached already |

## Findings

| source | as written | input that shows it | evidently intended | confidence | as-written member | corrected member |
|---|---|---|---|---|---|---|
| workflow.py:319-326 | `selected_filenames = []` rebinds the name before `for value in selected_filenames.values()`, so the loop calls `.values()` on a list and raises AttributeError | a selector reply of `{}` or `{"guidelines": ["a.pdf"]}` | flatten the original dict's list and string values into a fresh list, as the loader does with `temp` at workflow.py:155-162 | high, not executed | Selection.EmptyDictReplyRaises | Selection.FilesNotListFlattened |

## Left out

- `app.py` (page layout, styling, preset buttons, chat history) is not part of this model: it is user-interface code around a single call.
- The storage-service helpers (`get_drive_service`, `get_guideline_filenames`, `api_get_file_content`, `get_framework_content`, `get_all_patient_files`) are I/O. They appear as parameters: service availability, the catalog, a fallible `fetch(id, mimeType)` and the raw catalog text.
- The language-model calls and the prompt templates are network I/O and free text. The selector's reply is an arbitrary string input.
- `fetch_patient_data` and `fetch_patient_data_by_id` are hard-coded HTTP requests.
- `json.loads` is a parameter `parse: string -> Option<Json>`. Python's `str()` of a non-string value is a parameter `show`. JSON numbers are reals; NaN and infinities are not modelled.
- `rapidfuzz` partial-ratio scoring and Unicode lower-casing are folded into one score parameter with values 0 to 100.
- Frameworks.Score: `partial_ratio` returns a float, modelled as an integer from 0 to 100. Only the comparisons matter for choosing the maximum, and they are unchanged.
- Json.ToText: numbers are reals, so the difference `str()` shows between `1` and `1.0` is not modelled. It only affects the text that `show` produces.
- The guideline listing is read twice, at workflow.py:250 for the selector and at workflow.py:193 inside the loader. `Assembly.GatherGuidelines` takes both reads as separate parameters and promises nothing about the two being the same.
- Session state is passed explicitly: the guideline cache is a map in and out. The framework-list cache check (workflow.py:75-81) and the reset of an invalid cache (workflow.py:175-183) only guard that ambient state.
- A catalog entry missing its `"name"` key raises KeyError at workflow.py:201, outside the `try`. A missing `"id"` or `"mimeType"` is read inside the `try` at workflow.py:206, so that KeyError is caught and stored as `Error: 'id'` or `Error: 'mimeType'` (workflow.py:211-213). Catalog entries are modelled as records that always have all three keys, so neither case arises.
- Objects are field sequences whose lookup takes the first field with a key. Duplicate keys, which `json.loads` collapses, are not modelled separately.
- Logging output (`print`) is left out.
- Text.Replace: states only the unchanged cases, not the full effect of removing every end marker.
- Frameworks.ParseFrameworks: its own contract covers only a missing text; what it yields for a present text is stated by the lemmas in the rows after it.
- Selection.SelectGuidelines: its own contract states only non-emptiness; its relation to the reply is stated by the lemmas in the rows after it.

=== FILE: Assembly.dfy ===
/**
 * The guideline part of the final prompt in `generate_response`: one section
 * per selected name the loaded contents hold, in selection order, and the
 * path from the selector's reply through the cache to that text.
 */
module Assembly {
  import opened Wrappers
  import opened Seqs
  import opened Text
  import opened Json
  import opened Selection
  import opened Guidelines

  /** The header a guideline section starts with, after a blank line and a rule. */
  const SectionHeader: string := "\n\n---\nGUIDELINE FILE: "

  /** The section for one guideline: header, name, newline, text. */
  function Section(name: string, text: string): string
  {
    SectionHeader + name + "\n" + text
  }

  /** Where the header, the name, the newline and the text sit in a section. */
  lemma {:induction false} SectionParts(name: string, text: string)
    ensures |Section(name, text)| == |SectionHeader| + |name| + 1 + |text|
    ensures Section(name, text)[..|SectionHeader|] == SectionHeader
    ensures Section(name, text)[|SectionHeader|..|SectionHeader| + |name|] == name
    ensures Section(name, text)[|SectionHeader| + |name|] == '\n'
    ensures Section(name, text)[|SectionHeader| + |name| + 1..] == text
  {
  }

  /**
   * A section determines its name and text, as long as names hold no line
   * break: the first newline after the header ends the name.
   */
  lemma {:induction false} SectionInjective(n1: string, t1: string, n2: string, t2: string)
    requires '\n' !in n1 && '\n' !in n2
    requires Section(n1, t1) == Section(n2, t2)
    ensures n1 == n2 && t1 == t2
  {
    SectionParts(n1, t1);
    SectionParts(n2, t2);
  }

  /** The selected name with its content, if the contents hold it. */
  function SectionFor(contents: map<string, string>, name: string): (r: Option<(string, string)>)
    ensures r.None? <==> name !in contents
  {
    if name in contents then Some((name, contents[name])) else None
  }

  /** The (name, text) pairs the assembly loop emits, in selection order. */
  function Sections(selected: seq<string>, contents: map<string, string>): (r: seq<(string, string)>)
    ensures |r| <= |selected|
  {
    FilterMap(selected, n => SectionFor(contents, n))
  }

  /** The pairs rendered one after another. */
  function Render(sections: seq<(string, string)>): string
  {
    if |sections| == 0 then ""
    else Render(sections[..|sections| - 1]) + Section(sections[|sections| - 1].0, sections[|sections| - 1].1)
  }

  /** `selected_guideline_text`. */
  function GuidelineText(selected: seq<string>, contents: map<string, string>): string
  {
    Render(Sections(selected, contents))
  }

  /** Rendering distributes over concatenation. */
  lemma {:induction false} RenderAppend(a: seq<(string, string)>, b: seq<(string, string)>)
    ensures Render(a + b) == Render(a) + Render(b)
    decreases |b|
  {
    if |b| == 0 {
      assert a + b == a;
    } else {
      var init, last := b[..|b| - 1], b[|b| - 1];
      var tail := Section(last.0, last.1);
      assert (a + b)[..|a + b| - 1] == a + init;
      assert (a + b)[|a + b| - 1] == last;
      assert Render(a + b) == Render(a + init) + tail;
      RenderAppend(a, init);
      assert Render(b) == Render(init) + tail;
    }
  }

  /** Appending one selected name appends its section, or nothing if its content is absent. */
  lemma {:induction false} TextAppendName(selected: seq<string>, name: string, contents: map<string, string>)
    ensures GuidelineText(selected + [name], contents)
            == GuidelineText(selected, contents) + (if name in contents then Section(name, contents[name]) else "")
  {
    FilterMapAppend(selected, [name], n => SectionFor(contents, n));
    FilterMapSingle(name, n => SectionFor(contents, n));
    RenderAppend(Sections(selected, contents), Sections([name], contents));
    if name in contents {
      assert Render([(name, contents[name])]) == Render([]) + Section(name, contents[name]);
    }
  }

  /**
   * Every present name gets its section, in selection order: the `i`-th
   * selected name, when present, is emitted after exactly the present names
   * selected before it.
   */
  lemma {:induction false} SectionsInOrder(selected: seq<string>, contents: map<string, string>, i: nat)
    requires i < |selected| && selected[i] in contents
    ensures |Sections(selected[..i], contents)| < |Sections(selected, contents)|
    ensures Sections(selected, contents)[|Sections(selected[..i], contents)|] == (selected[i], contents[selected[i]])
  {
    FilterMapPlaces(selected, n => SectionFor(contents, n), i);
  }

  /** Every emitted section is a selected name paired with its loaded content. */
  lemma {:induction false} SectionsFromSelection(selected: seq<string>, contents: map<string, string>, k: nat)
    requires k < |Sections(selected, contents)|
    ensures Sections(selected, contents)[k].0 in selected
    ensures Sections(selected, contents)[k].0 in contents
    ensures Sections(selected, contents)[k].1 == contents[Sections(selected, contents)[k].0]
  {
    FilterMapSources(selected, n => SectionFor(contents, n), k);
    var x := Sections(selected, contents)[k];
    var i :| k <= i < |selected| && SectionFor(contents, selected[i]) == Some(x);
    assert selected[i] in contents && x == (selected[i], contents[selected[i]]);
    assert selected[i] in selected;
  }

  /** A selected name the contents lack contributes nothing. */
  lemma {:induction false} AbsentSkipped(before: seq<string>, name: string, after: seq<string>, contents: map<string, string>)
    requires name !in contents
    ensures GuidelineText(before + [name] + after, contents) == GuidelineText(before + after, contents)
  {
    FilterMapAppend(before + [name], after, n => SectionFor(contents, n));
    FilterMapAppend(before, [name], n => SectionFor(contents, n));
    FilterMapSingle(name, n => SectionFor(contents, n));
    FilterMapAppend(before, after, n => SectionFor(contents, n));
    assert Sections([name], contents) == [];
    assert Sections(before + [name] + after, contents) == Sections(before, contents) + Sections(after, contents);
  }

  /** When every selected name is present there is one section per name, duplicates repeated. */
  lemma {:induction false} AllPresent(selected: seq<string>, contents: map<string, string>)
    requires forall k :: 0 <= k < |selected| ==> selected[k] in contents
    ensures |Sections(selected, contents)| == |selected|
    ensures forall k :: 0 <= k < |selected| ==> Sections(selected, contents)[k] == (selected[k], contents[selected[k]])
  {
    FilterMapTotal(selected, n => SectionFor(contents, n));
  }

  /** When no selected name is present the guideline text is empty. */
  lemma {:induction false} NonePresent(selected: seq<string>, contents: map<string, string>)
    requires forall k :: 0 <= k < |selected| ==> selected[k] !in contents
    ensures GuidelineText(selected, contents) == ""
  {
    FilterMapNone(selected, n => SectionFor(contents, n));
  }

  /** The assembly loop: `text += section` for each selected name the contents hold. */
  method AssembleGuidelineText(selected: seq<string>, contents: map<string, string>) returns (text: string)
    ensures text == GuidelineText(selected, contents)
  {
    text := "";
    var i := 0;
    assert selected[..0] == [];
    while i < |selected|
      invariant 0 <= i <= |selected|
      invariant text == GuidelineText(selected[..i], contents)
    {
      var name := selected[i];
      TextAppendName(selected[..i], name, contents);
      assert selected[..i + 1] == selected[..i] + [name];
      if name in contents {
        text := text + Section(name, contents[name]);
      }
      i := i + 1;
    }
    assert selected[..i] == selected;
  }

  /**
   * Steps 3 and 4 of `generate_response` as the code runs them: pick
   * guideline names from the selector's reply, load them through the cache,
   * and assemble their text. A dict reply without a list under `"files"`
   * raises AttributeError before anything is loaded: `selected` is then
   * `None`, the cache is left as it was, nothing is downloaded and there is
   * no text. The listing is read twice in the workflow, once to offer names
   * to the selector (`listing`) and once inside the loader (`catalog`); the
   * two reads may differ.
   */
  method GatherGuidelines(reply: string, parse: string -> Option<Json>, show: Json -> string,
                          listing: seq<GuidelineFile>, catalog: seq<GuidelineFile>,
                          cache: map<string, string>, serviceUp: bool,
                          fetch: (string, string) -> Result<string>)
    returns (selected: Option<seq<string>>, contents: map<string, string>, fetched: seq<string>, text: string)
    ensures selected == SelectGuidelinesAsWritten(reply, parse, show, Names(listing))
    ensures selected.None? ==> contents == cache && fetched == [] && text == ""
    ensures selected.Some? && |listing| > 0 ==> |selected.value| > 0
    // the cache only grows: nothing cached before is changed
    ensures forall n :: n in cache ==> n in contents && contents[n] == cache[n]
    // a selected name, as written, is loaded whenever the loader's listing has it and the service is up
    ensures selected.Some? ==>
              forall n :: n in selected.value && n != "" && Stripped(n) && n in Names(catalog) && serviceUp ==> n in contents
    // the cache fill for the selection, stripped, with each name downloaded at most once
    ensures selected.Some? && serviceUp ==>
              Filled(contents, fetched) == FillCache(catalog, StripAll(NonEmpty(selected.value)), cache, fetch)
    ensures Distinct(fetched)
    ensures !serviceUp ==> contents == cache && fetched == []
    ensures selected.Some? ==> text == GuidelineText(selected.value, contents)
  {
    selected := SelectGuidelinesAsWritten(reply, parse, show, Names(listing));
    if selected.None? {
      contents, fetched, text := cache, [], "";
    } else {
      var names := selected.value;
      RequestOfList(names, show);
      var loaded;
      loaded, fetched := LoadGuidelineContents(Listed(names), show, cache, serviceUp, catalog, fetch);
      contents := loaded.value;
      if serviceUp {
        FillFetchesOnce(catalog, StripAll(NonEmpty(names)), cache, fetch);
      }
      forall n | n in names && n != "" && Stripped(n)
        ensures n in StripAll(NonEmpty(names))
      {
        StripInList(NonEmpty(names), n);
      }
      text := AssembleGuidelineText(names, contents);
    }
  }

  /** A stripped name in a list is in the list stripped. */
  lemma {:induction false} StripInList(xs: seq<string>, n: string)
    requires n in xs && Stripped(n)
    ensures n in StripAll(xs)
  {
    var k :| 0 <= k < |xs| && xs[k] == n;
    StripFixesStripped(n);
    assert StripAll(xs)[k] == n;
  }

  /**
   * A selected name with surrounding whitespace is requested stripped, so the
   * file under the stripped name is downloaded, yet the assembly looks up the
   * name as written and emits no section for it.
   */
  lemma {:induction false} PaddedNameSkipped(selected: seq<string>, show: Json -> string, catalog: seq<GuidelineFile>,
                                             cache: map<string, string>, fetch: (string, string) -> Result<string>, n: string)
    requires n in selected && n != "" && Strip(n) != n
    requires n !in cache && n !in Names(catalog)
    requires Strip(n) in Names(catalog)
    ensures var contents := FillCache(catalog, StripAll(NonEmpty(selected)), cache, fetch).contents;
            Strip(n) in contents && n !in contents
  {
    var k :| 0 <= k < |NonEmpty(selected)| && NonEmpty(selected)[k] == n;
    assert StripAll(NonEmpty(selected))[k] == Strip(n);
  }

  /** The stripped form of a padded selected name is downloaded, unless it was cached already. */
  lemma {:induction false} PaddedNameDownloaded(selected: seq<string>, show: Json -> string, catalog: seq<GuidelineFile>,
                                                cache: map<string, string>, fetch: (string, string) -> Result<string>, n: string)
    requires n in selected && n != "" && Strip(n) != n
    requires n !in cache && n !in Names(catalog)
    requires Strip(n) in Names(catalog)
    ensures Strip(n) !in cache ==> Strip(n) in FillCache(catalog, StripAll(NonEmpty(selected)), cache, fetch).fetched
  {
    PaddedNameSkipped(selected, show, catalog, cache, fetch, n);
    FillFetched(catalog, StripAll(NonEmpty(selected)), cache, fetch);
  }
}

=== FILE: Frameworks.dfy ===
/**
 * The prompt-framework catalog: parsing the concatenated catalog text into
 * named frameworks (`load_frameworks`) and picking the framework whose name
 * best matches the user's query (`choose_best_framework`).
 */
module Frameworks {
  import opened Wrappers
  import opened Text
  import opened Seqs

  /** A named response template. */
  datatype Framework = Framework(name: string, content: string)

  /** Opens every framework block in the catalog text. */
  const StartMarker: string := "--- START OF PROMPT FRAMEWORK:"
  /** Ends a block's header; the header is the framework's name. */
  const HeaderEnd: string := "---"
  /** Deleted wherever it appears in a block's body. */
  const EndMarker: string := "END OF PROMPT FRAMEWORK:"

  // ---------------------------------------------------------------------
  // Catalog parsing
  // ---------------------------------------------------------------------

  /**
   * One block (the text after a start marker): the header up to its first
   * `---` names the framework, the rest is its content; a block with no
   * `---` is malformed and yields nothing.
   */
  function ParseBlock(block: string): (r: Option<Framework>)
    ensures r.None? <==> !Contains(block, HeaderEnd)
    ensures r.Some? ==> Stripped(r.value.name) && Stripped(r.value.content)
    ensures r.Some? ==> !Contains(r.value.name, HeaderEnd)
  {
    match SplitOnce(block, HeaderEnd)
    case None => None
    case Some((header, body)) =>
      var name := Strip(header);
      StripKeepsAbsent(header, HeaderEnd);
      Some(Framework(name, Strip(Replace(body, EndMarker, ""))))
  }

  /**
   * The name is the stripped text before the block's first `---`, and the
   * content the stripped rest with every end marker removed.
   */
  lemma {:induction false} ParseBlockAt(head: string, tail: string)
    requires forall j: nat :: j < |head| ==> !OccursAt(head + HeaderEnd + tail, HeaderEnd, j)
    ensures ParseBlock(head + HeaderEnd + tail) == Some(Framework(Strip(head), Strip(Replace(tail, EndMarker, ""))))
  {
    var s := head + HeaderEnd + tail;
    assert OccursAt(s, HeaderEnd, |head|) by { assert s[|head|..|head| + 3] == HeaderEnd; }
    var r := SplitOnce(s, HeaderEnd);
    var h := r.value.0;
    assert OccursAt(s, HeaderEnd, |h|) by {
      assert s == h + HeaderEnd + r.value.1;
      assert s[|h|..|h| + 3] == HeaderEnd;
    }
    assert |h| == |head|;
    assert h == s[..|h|] && head == s[..|head|];
    assert r.value.1 == s[|h| + 3..] && tail == s[|head| + 3..];
  }

  /** Stripping cannot introduce a pattern. */
  lemma {:induction false} StripKeepsAbsent(s: string, pat: string)
    requires !Contains(s, pat)
    ensures !Contains(Strip(s), pat)
  {
    var i := StripIsSlice(s);
    NoneInInfix(s, i, |Strip(s)|, pat);
  }

  /** A slice of a string without `pat` has no `pat` either. */
  lemma {:induction false} NoneInInfix(s: string, i: nat, n: nat, pat: string)
    requires i + n <= |s|
    requires !Contains(s, pat)
    ensures !Contains(s[i..i + n], pat)
  {
    if Contains(s[i..i + n], pat) {
      var j: nat :| j <= n && OccursAt(s[i..i + n], pat, j);
      OccursInSlice(s, pat, i, i + n, j);
    }
  }

  /** The blocks in order, skipping malformed ones. */
  function ParseBlocks(blocks: seq<string>): (r: seq<Framework>)
  {
    FilterMap(blocks, ParseBlock)
  }

  /**
   * `load_frameworks` on the catalog text (`None` when the store returned
   * nothing): text before the first start marker is dropped and every later
   * block is parsed.
   */
  function ParseFrameworks(raw: Option<string>): (r: seq<Framework>)
    ensures raw.None? ==> r == []
  {
    match raw
    case None => []
    case Some(text) =>
      if text == "" then []
      else
        var blocks := Split(text, StartMarker);
        ParseBlocks(blocks[1..])
  }

  /** A parsed framework: both fields stripped, and no `---` in the name. */
  predicate Parsed(f: Framework)
  {
    Stripped(f.name) && Stripped(f.content) && !Contains(f.name, HeaderEnd)
  }

  lemma {:induction false} ParseBlocksClean(blocks: seq<string>)
    ensures forall k :: 0 <= k < |ParseBlocks(blocks)| ==> Parsed(ParseBlocks(blocks)[k])
  {
    forall k | 0 <= k < |ParseBlocks(blocks)|
      ensures Parsed(ParseBlocks(blocks)[k])
    {
      FilterMapSources(blocks, ParseBlock, k);
    }
  }

  /** Every framework read from the catalog has stripped fields and a name without `---`. */
  lemma {:induction false} ParsedFrameworksClean(raw: Option<string>)
    ensures forall k :: 0 <= k < |ParseFrameworks(raw)| ==> Parsed(ParseFrameworks(raw)[k])
  {
    if raw.Some? && raw.value != "" {
      ParseBlocksClean(Split(raw.value, StartMarker)[1..]);
    }
  }

  /** Each start marker yields at most one framework. */
  lemma {:induction false} AtMostOnePerMarker(raw: string)
    ensures |ParseFrameworks(Some(raw))| <= |Split(raw, StartMarker)| - 1
  {
  }

  /** Text without a start marker holds no frameworks. */
  lemma {:induction false} NoMarkerNoFrameworks(raw: string)
    requires !Contains(raw, StartMarker)
    ensures ParseFrameworks(Some(raw)) == []
  {
    assert Split(raw, StartMarker) == [raw];
  }

  /** A block lacking `---` is skipped without affecting its neighbours. */
  lemma {:induction false} MalformedBlockSkipped(a: seq<string>, block: string, b: seq<string>)
    requires !Contains(block, HeaderEnd)
    ensures ParseBlocks(a + [block] + b) == ParseBlocks(a) + ParseBlocks(b)
  {
    FilterMapAppend(a + [block], b, ParseBlock);
    FilterMapAppend(a, [block], ParseBlock);
    FilterMapSingle(block, ParseBlock);
  }

  lemma {:induction false} StartMarkerShape()
    ensures LastCharUnique(StartMarker)
    ensures StartMarker[0] == '-' && StartMarker[|StartMarker| - 1] == ':'
    ensures '\n' !in StartMarker && '\n' !in EndMarker && ' ' !in HeaderEnd
    ensures OccursAt(StartMarker, HeaderEnd, 0)
  {
    assert StartMarker[..|StartMarker| - 1] == "--- START OF PROMPT FRAMEWORK";
    assert ':' !in StartMarker[..|StartMarker| - 1];
    forall k | 0 <= k < |StartMarker| - 1
      ensures StartMarker[k] != StartMarker[|StartMarker| - 1]
    {
      assert StartMarker[k] == StartMarker[..|StartMarker| - 1][k];
    }
    assert StartMarker[0..3] == HeaderEnd;
  }

  /** Text without `---` cannot contain the start marker, which begins with `---`. */
  lemma {:induction false} NoStartWithoutHeaderEnd(s: string)
    requires !Contains(s, HeaderEnd)
    ensures !Contains(s, StartMarker)
  {
    StartMarkerShape();
    if Contains(s, StartMarker) {
      var i: nat :| i <= |s| && OccursAt(s, StartMarker, i);
      assert s[i..i + 3] == s[i..i + |StartMarker|][..3] == StartMarker[..3];
      assert OccursAt(s, HeaderEnd, i);
    }
  }

  // ---------------------------------------------------------------------
  // Rendering: the catalog format the parser reads back
  // ---------------------------------------------------------------------

  /** A framework that survives a render/parse round trip unchanged. */
  predicate Renderable(f: Framework)
  {
    && Stripped(f.name) && Stripped(f.content)
    && !Contains(f.name, HeaderEnd)
    && !Contains(f.content, StartMarker)
    && !Contains(f.content, EndMarker)
  }

  /** The text following the start marker of one framework's block. */
  function Body(f: Framework): string
  {
    " " + f.name + " " + HeaderEnd + "\n" + f.content + "\n"
  }

  function Bodies(fws: seq<Framework>): (r: seq<string>)
    ensures |r| == |fws|
  {
    if |fws| == 0 then [] else [Body(fws[0])] + Bodies(fws[1..])
  }

  /** The catalog text holding `fws` in order. */
  function Render(fws: seq<Framework>): (r: string)
    ensures r == "" <==> |fws| == 0
  {
    if |fws| == 0 then "" else StartMarker + Body(fws[0]) + Render(fws[1..])
  }

  lemma {:induction false} BodyLacksStart(f: Framework)
    requires Renderable(f)
    ensures !Contains(Body(f), StartMarker)
  {
    StartMarkerShape();
    NoStartWithoutHeaderEnd(f.name);
    var lead := " " + f.name;
    var head := lead + (" " + HeaderEnd);
    var last := f.content + "\n";
    NoneWithoutFirstChar(" ", f.name, StartMarker);
    assert " " + HeaderEnd == " ---";
    assert ':' !in " ---";
    NoneWithoutLastChar(lead, " " + HeaderEnd, StartMarker);
    NoneWithoutLastChar(f.content, "\n", StartMarker);
    NoneAcrossSeparator(head, '\n', last, StartMarker);
    assert Body(f) == head + ['\n'] + last;
  }

  /** A rendered block is its header, the `---` that ends it, and the content on its own lines. */
  lemma {:induction false} BodyShape(f: Framework)
    ensures Body(f) == (" " + f.name + " ") + HeaderEnd + ("\n" + f.content + "\n")
  {
    var a, b := " " + f.name + " ", "\n" + f.content + "\n";
    assert Body(f) == a + HeaderEnd + "\n" + f.content + "\n";
    assert a + HeaderEnd + "\n" + f.content + "\n" == a + HeaderEnd + b;
  }

  /** In a rendered block the first `---` is the one that ends the header. */
  lemma {:induction false} BodyHeadClean(f: Framework)
    requires Renderable(f)
    ensures forall j: nat :: j < |" " + f.name + " "| ==> !OccursAt(Body(f), HeaderEnd, j)
  {
    var x := " " + f.name;
    var tail := "\n" + f.content + "\n";
    NoneWithoutFirstChar(" ", f.name, HeaderEnd);
    FirstAfterSeparator(x, ' ', HeaderEnd, tail);
    assert Body(f) == x + [' '] + HeaderEnd + tail;
  }

  /** The content part of a rendered block holds no end marker. */
  lemma {:induction false} BodyTailClean(f: Framework)
    requires Renderable(f)
    ensures !Contains("\n" + f.content + "\n", EndMarker)
  {
    StartMarkerShape();
    var last := f.content + "\n";
    assert !Contains("", EndMarker);
    NoneAcrossSeparator(f.content, '\n', "", EndMarker);
    assert last == f.content + ['\n'] + "";
    NoneAcrossSeparator("", '\n', last, EndMarker);
    assert "\n" + f.content + "\n" == "" + ['\n'] + last;
  }

  /** A rendered block's header strips to the name. */
  lemma {:induction false} BodyName(f: Framework)
    requires Renderable(f)
    ensures Strip(" " + f.name + " ") == f.name
  {
    StripPadded(" ", f.name, " ");
  }

  /** A rendered block's content part, end markers removed and stripped, is the content. */
  lemma {:induction false} BodyContent(f: Framework)
    requires Renderable(f)
    ensures Strip(Replace("\n" + f.content + "\n", EndMarker, "")) == f.content
  {
    BodyTailClean(f);
    StripPadded("\n", f.content, "\n");
  }

  /** A rendered block splits at the `---` that ends its header. */
  lemma {:induction false} BodyBlock(f: Framework)
    requires Renderable(f)
    ensures ParseBlock(Body(f))
            == Some(Framework(Strip(" " + f.name + " "), Strip(Replace("\n" + f.content + "\n", EndMarker, ""))))
  {
    BodyShape(f);
    BodyHeadClean(f);
    ParseBlockAt(" " + f.name + " ", "\n" + f.content + "\n");
  }

  lemma {:induction false} ParseBody(f: Framework)
    requires Renderable(f)
    ensures ParseBlock(Body(f)) == Some(f)
  {
    BodyBlock(f);
    BodyName(f);
    BodyContent(f);
  }

  lemma {:induction false} SplitRendered(x: string, fws: seq<Framework>)
    requires !Contains(x, StartMarker)
    requires forall k :: 0 <= k < |fws| ==> Renderable(fws[k])
    ensures Split(x + Render(fws), StartMarker) == [x] + Bodies(fws)
    decreases fws
  {
    StartMarkerShape();
    if |fws| == 0 {
      assert x + Render(fws) == x;
    } else {
      var f := fws[0];
      var rest := Body(f) + Render(fws[1..]);
      assert Render(fws) == StartMarker + rest;
      BodyLacksStart(f);
      assert x + Render(fws) == x + StartMarker + rest;
      SplitAfterClean(x, StartMarker, rest);
      forall k | 0 <= k < |fws[1..]| ensures Renderable(fws[1..][k]) {
        assert fws[1..][k] == fws[k + 1];
      }
      SplitRendered(Body(f), fws[1..]);
      assert Bodies(fws) == [Body(f)] + Bodies(fws[1..]);
    }
  }

  lemma {:induction false} ParseBodies(fws: seq<Framework>)
    requires forall k :: 0 <= k < |fws| ==> Renderable(fws[k])
    ensures ParseBlocks(Bodies(fws)) == fws
  {
    if |fws| > 0 {
      ParseBody(fws[0]);
      assert Bodies(fws)[0] == Body(fws[0]);
      assert Bodies(fws)[1..] == Bodies(fws[1..]);
      forall k | 0 <= k < |fws[1..]| ensures Renderable(fws[1..][k]) {
        assert fws[1..][k] == fws[k + 1];
      }
      ParseBodies(fws[1..]);
    }
  }

  /** Parsing a rendered catalog, after any preamble without a start marker, gives back the frameworks. */
  lemma {:induction false} RoundTrip(pre: string, fws: seq<Framework>)
    requires !Contains(pre, StartMarker)
    requires forall k :: 0 <= k < |fws| ==> Renderable(fws[k])
    ensures ParseFrameworks(Some(pre + Render(fws))) == fws
  {
    if |fws| == 0 {
      assert pre + Render(fws) == pre;
      NoMarkerNoFrameworks(pre);
    } else {
      RoundTripNonEmpty(pre, fws);
    }
  }

  lemma {:induction false} RoundTripNonEmpty(pre: string, fws: seq<Framework>)
    requires |fws| > 0
    requires !Contains(pre, StartMarker)
    requires forall k :: 0 <= k < |fws| ==> Renderable(fws[k])
    ensures ParseFrameworks(Some(pre + Render(fws))) == fws
  {
    SplitRendered(pre, fws);
    ParseSplitBodies(pre + Render(fws), fws);
  }

  lemma {:induction false} ParseSplitBodies(text: string, fws: seq<Framework>)
    requires text != ""
    requires Split(text, StartMarker) == [Split(text, StartMarker)[0]] + Bodies(fws)
    requires forall k :: 0 <= k < |fws| ==> Renderable(fws[k])
    ensures ParseFrameworks(Some(text)) == fws
  {
    assert Split(text, StartMarker)[1..] == Bodies(fws);
    ParseBodies(fws);
  }

  /** Whatever precedes the first start marker has no effect on the result. */
  lemma {:induction false} PreambleIgnored(pre: string, rest: string)
    requires !Contains(pre, StartMarker)
    ensures ParseFrameworks(Some(pre + StartMarker + rest)) == ParseFrameworks(Some(StartMarker + rest))
  {
    StartMarkerShape();
    SplitAfterClean(pre, StartMarker, rest);
    assert !Contains("", StartMarker);
    SplitAfterClean("", StartMarker, rest);
    assert "" + StartMarker + rest == StartMarker + rest;
  }

  // ---------------------------------------------------------------------
  // Choosing the framework for a query
  // ---------------------------------------------------------------------

  /** A fuzzy-match percentage. */
  type Score = x: int | 0 <= x <= 100

  /**
   * `k` is the first index whose framework scores highest against `query`,
   * where `score(query, name)` stands for the partial-ratio similarity of the
   * lower-cased query and name.
   */
  ghost predicate IsFirstBest(query: string, fws: seq<Framework>, score: (string, string) -> Score, k: int)
  {
    && 0 <= k < |fws|
    && (forall j :: 0 <= j < |fws| ==> score(query, fws[j].name) <= score(query, fws[k].name))
    && (forall j :: 0 <= j < k ==> score(query, fws[j].name) < score(query, fws[k].name))
  }

  /**
   * `choose_best_framework`: a linear scan keeping the first framework with a
   * strictly higher score; `None` models the IndexError on an empty catalog.
   */
  method ChooseBestFramework(query: string, fws: seq<Framework>, score: (string, string) -> Score)
    returns (best: Option<Framework>)
    ensures best.None? <==> |fws| == 0
    ensures best.Some? ==> exists k :: IsFirstBest(query, fws, score, k) && best.value == fws[k]
  {
    if |fws| == 0 {
      return None;
    }
    var bestScore: int := -1;
    var bestAt := 0;
    var i := 0;
    while i < |fws|
      invariant 0 <= i <= |fws|
      invariant 0 <= bestAt < |fws|
      invariant i == 0 ==> bestScore == -1 && bestAt == 0
      invariant i > 0 ==> bestAt < i && bestScore == score(query, fws[bestAt].name)
      invariant forall j :: 0 <= j < i ==> score(query, fws[j].name) <= bestScore
      invariant forall j :: 0 <= j < bestAt ==> score(query, fws[j].name) < bestScore
    {
      var s := score(query, fws[i].name);
      if s > bestScore {
        bestScore := s;
        bestAt := i;
      }
      i := i + 1;
    }
    return Some(fws[bestAt]);
  }

  /** The first best index is unique, so the choice is determined by the scores. */
  lemma {:induction false} FirstBestUnique(query: string, fws: seq<Framework>, score: (string, string) -> Score, k1: int, k2: int)
    requires IsFirstBest(query, fws, score, k1) && IsFirstBest(query, fws, score, k2)
    ensures k1 == k2
  {
    var s1, s2 := score(query, fws[k1].name), score(query, fws[k2].name);
    assert s1 <= s2 && s2 <= s1;
  }

  /**
   * If a framework is named exactly as the query and an exact match scores
   * 100, the chosen framework scores 100 and comes no later than that one.
   */
  lemma {:induction false} ExactNameWins(query: string, fws: seq<Framework>, score: (string, string) -> Score, j: int, k: int)
    requires 0 <= j < |fws| && fws[j].name == query
    requires score(query, query) == 100
    requires IsFirstBest(query, fws, score, k)
    ensures score(query, fws[k].name) == 100
    ensures k <= j
  {
  }
}

=== FILE: Guidelines.dfy ===
/**
 * `load_guideline_contents`: the normaliser that turns whatever it is given
 * into a list of stripped names, and the cache fill that downloads each
 * requested catalog file not cached yet.
 */
module Guidelines {
  import opened Wrappers
  import opened Seqs
  import opened Text
  import opened Json

  // ---------------------------------------------------------------------
  // Request normaliser
  // ---------------------------------------------------------------------

  /**
   * What the comprehension that ends the normaliser iterates over: nothing
   * for `None` or an unexpected scalar, a string as a singleton, a list
   * itself, a dict's `"files"` value taken as it is, or else the dict's
   * flattened list and string values. `None` here is the TypeError raised
   * when `"files"` holds something that cannot be iterated.
   */
  function RequestItems(j: Json): (r: Option<seq<Json>>)
    ensures r.None? <==> j.Obj? && Lookup(j.fields, "files").Some? && Iterate(Lookup(j.fields, "files").value).None?
    ensures j.Arr? ==> r == Some(j.items)
    ensures j.Str? ==> r == Some([j])
    ensures (j.Null? || j.Bool? || j.Num?) ==> r == Some([])
    ensures j.Obj? && Lookup(j.fields, "files").Some? ==> r == Iterate(Lookup(j.fields, "files").value)
    ensures j.Obj? && Lookup(j.fields, "files").None? ==> r == Some(FlattenValues(j.fields))
  {
    match j
    case Str(_) => Some([j])
    case Obj(fields) =>
      var files := Lookup(fields, "files");
      if files.Some? then Iterate(files.value) else Some(FlattenValues(fields))
    case Arr(items) => Some(items)
    case _ => Some([])
  }

  /** `.strip()` applied to every name. */
  function StripAll(xs: seq<string>): (r: seq<string>)
    ensures |r| == |xs|
    ensures forall k :: 0 <= k < |r| ==> r[k] == Strip(xs[k]) && Stripped(r[k])
  {
    seq(|xs|, k requires 0 <= k < |xs| => Strip(xs[k]))
  }

  /** The normalised request: `[str(x).strip() for x in items if x]`, or `None` on TypeError. */
  function NormaliseRequest(j: Json, show: Json -> string): (r: Option<seq<string>>)
    ensures r.None? <==> j.Obj? && Lookup(j.fields, "files").Some?
                         && (Lookup(j.fields, "files").value.Null?
                             || Lookup(j.fields, "files").value.Bool?
                             || Lookup(j.fields, "files").value.Num?)
    ensures r.Some? ==> forall k :: 0 <= k < |r.value| ==> Stripped(r.value[k])
  {
    match RequestItems(j)
    case None => None
    case Some(items) => Some(StripAll(Kept(items, show)))
  }

  /**
   * Nothing is invented: every requested name is the stripped text of a
   * truthy item, taken from the item's position or later.
   */
  lemma {:induction false} RequestSources(j: Json, show: Json -> string, k: nat)
    requires NormaliseRequest(j, show).Some? && k < |NormaliseRequest(j, show).value|
    ensures exists i :: k <= i < |RequestItems(j).value|
                        && Truthy(RequestItems(j).value[i])
                        && NormaliseRequest(j, show).value[k] == Strip(ToText(RequestItems(j).value[i], show))
  {
    var items := RequestItems(j).value;
    KeptSources(items, show, k);
    var i :| k <= i < |items| && Truthy(items[i]) && Kept(items, show)[k] == ToText(items[i], show);
    assert NormaliseRequest(j, show).value[k] == Strip(Kept(items, show)[k]);
  }

  /** A list of names is accepted: its empty names are dropped and the rest stripped, in order. */
  lemma {:induction false} RequestOfList(names: seq<string>, show: Json -> string)
    ensures NormaliseRequest(Listed(names), show) == Some(StripAll(NonEmpty(names)))
  {
    var j := Listed(names);
    assert RequestItems(j) == Some(j.items);
    KeptListed(names, show);
  }

  /** A list of non-empty stripped names is requested exactly as given. */
  lemma {:induction false} RequestOfCleanList(names: seq<string>, show: Json -> string)
    requires forall k :: 0 <= k < |names| ==> names[k] != "" && Stripped(names[k])
    ensures NormaliseRequest(Listed(names), show) == Some(names)
  {
    RequestOfList(names, show);
    assert NonEmpty(names) == names;
    var stripped := StripAll(names);
    forall k | 0 <= k < |names| ensures stripped[k] == names[k] {
      StripFixesStripped(names[k]);
    }
    assert stripped == names;
  }

  /** `None`, a boolean or a number requests nothing; a string requests itself, stripped, unless empty. */
  lemma {:induction false} RequestOfScalar(j: Json, show: Json -> string)
    requires !j.Arr? && !j.Obj?
    ensures NormaliseRequest(j, show) == Some(if j.Str? && j.s != "" then [Strip(j.s)] else [])
  {
    FilterMapSingle(j, x => TextIfTruthy(show, x));
    if j.Str? {
      assert RequestItems(j) == Some([j]);
      if j.s != "" {
        assert Kept([j], show) == [j.s];
        assert StripAll([j.s]) == [Strip(j.s)];
      } else {
        assert Kept([j], show) == [];
      }
    } else {
      assert RequestItems(j) == Some([]);
      assert Kept([], show) == [];
      assert StripAll([]) == [];
    }
  }

  /**
   * A dict whose `"files"` is a string requests that string's characters one
   * by one, each stripped: a space becomes an empty name.
   */
  lemma {:induction false} RequestOfFilesString(fields: seq<(string, Json)>, s: string, show: Json -> string)
    requires Lookup(fields, "files") == Some(Str(s))
    ensures NormaliseRequest(Obj(fields), show).Some?
    ensures |NormaliseRequest(Obj(fields), show).value| == |s|
    ensures forall k :: 0 <= k < |s| ==> NormaliseRequest(Obj(fields), show).value[k] == Strip([s[k]])
  {
    var items := Iterate(Str(s)).value;
    FilterMapTotal(items, x => TextIfTruthy(show, x));
  }

  /** A dict with no `"files"` key requests its flattened list and string values. */
  lemma {:induction false} RequestOfPlainDict(fields: seq<(string, Json)>, show: Json -> string)
    requires Lookup(fields, "files").None?
    ensures NormaliseRequest(Obj(fields), show) == Some(StripAll(Kept(FlattenValues(fields), show)))
  {
  }

  /**
   * Order is kept: a truthy item lands, stripped, at the position given by the
   * number of truthy items before it.
   */
  lemma {:induction false} RequestKeepsOrder(j: Json, show: Json -> string, i: nat)
    requires RequestItems(j).Some? && i < |RequestItems(j).value| && Truthy(RequestItems(j).value[i])
    ensures |Kept(RequestItems(j).value[..i], show)| < |NormaliseRequest(j, show).value|
    ensures NormaliseRequest(j, show).value[|Kept(RequestItems(j).value[..i], show)|]
            == Strip(ToText(RequestItems(j).value[i], show))
  {
    KeptKeepsOrder(RequestItems(j).value, show, i);
  }

  // ---------------------------------------------------------------------
  // Cache fill
  // ---------------------------------------------------------------------

  /** One entry of the guideline catalog. */
  datatype GuidelineFile = GuidelineFile(name: string, id: string, mimeType: string)

  /** `[f["name"] for f in guideline_files]`. */
  function Names(catalog: seq<GuidelineFile>): (r: seq<string>)
    ensures |r| == |catalog|
    ensures forall i :: 0 <= i < |catalog| ==> r[i] == catalog[i].name
  {
    seq(|catalog|, i requires 0 <= i < |catalog| => catalog[i].name)
  }

  /** The names of a non-empty catalog: its first entry's name, then the rest's. */
  lemma {:induction false} NamesCons(catalog: seq<GuidelineFile>)
    requires |catalog| > 0
    ensures Names(catalog) == [catalog[0].name] + Names(catalog[1..])
  {
    assert forall i :: 0 <= i < |catalog| - 1 ==> Names(catalog[1..])[i] == catalog[i + 1].name;
  }

  /** Position of the first catalog entry called `n`. */
  function FirstNamed(catalog: seq<GuidelineFile>, n: string): (r: Option<nat>)
    ensures r.None? <==> n !in Names(catalog)
    ensures r.Some? ==> r.value < |catalog| && catalog[r.value].name == n
                        && forall i :: 0 <= i < r.value ==> catalog[i].name != n
  {
    if |catalog| == 0 then None
    else if catalog[0].name == n then
      assert Names(catalog)[0] == n;
      Some(0)
    else
      NamesCons(catalog);
      match FirstNamed(catalog[1..], n)
      case None => None
      case Some(i) =>
        assert catalog[1..][i] == catalog[i + 1];
        Some(i + 1)
  }

  /** What a failed download is recorded as, ahead of the error message. */
  const ErrorPrefix: string := "Error: "

  /** What the cache holds after downloading `f`: its text, or `"Error: "` and the failure message. */
  function Downloaded(f: GuidelineFile, fetch: (string, string) -> Result<string>): (r: string)
    ensures fetch(f.id, f.mimeType).Success? ==> r == fetch(f.id, f.mimeType).value
    // a failure is recorded as the error message behind an `Error: ` prefix, from which it can be read back
    ensures fetch(f.id, f.mimeType).Failure? ==>
              |r| >= |ErrorPrefix| && r[..|ErrorPrefix|] == ErrorPrefix && r[|ErrorPrefix|..] == fetch(f.id, f.mimeType).error
  {
    match fetch(f.id, f.mimeType)
    case Success(text) => text
    case Failure(e) => ErrorPrefix + e
  }

  /** The filled cache and the names downloaded, in download order. */
  datatype Filled = Filled(contents: map<string, string>, fetched: seq<string>)

  /**
   * The loop over the catalog: each entry whose name was requested and is
   * not cached yet is downloaded and cached.
   */
  function FillCache(catalog: seq<GuidelineFile>, request: seq<string>, cache: map<string, string>,
                     fetch: (string, string) -> Result<string>): (r: Filled)
    // nothing cached is changed
    ensures forall n :: n in cache ==> n in r.contents && r.contents[n] == cache[n]
    // a name ends up cached exactly when it was, or is both requested and in the catalog
    ensures forall n :: n in r.contents <==> n in cache || (n in request && n in Names(catalog))
    decreases |catalog|
  {
    if |catalog| == 0 then Filled(cache, [])
    else
      var f := catalog[0];
      var next := if f.name in request && f.name !in cache then cache[f.name := Downloaded(f, fetch)] else cache;
      var rest := FillCache(catalog[1..], request, next, fetch);
      NamesCons(catalog);
      if f.name in request && f.name !in cache then Filled(rest.contents, [f.name] + rest.fetched) else rest
  }

  /** A newly cached name holds the download of the first catalog entry with that name. */
  lemma {:induction false} FillValue(catalog: seq<GuidelineFile>, request: seq<string>, cache: map<string, string>,
                                     fetch: (string, string) -> Result<string>, n: string)
    requires n in FillCache(catalog, request, cache, fetch).contents && n !in cache
    ensures FirstNamed(catalog, n).Some?
    ensures FillCache(catalog, request, cache, fetch).contents[n] == Downloaded(catalog[FirstNamed(catalog, n).value], fetch)
    decreases |catalog|
  {
    var f := catalog[0];
    NamesCons(catalog);
    if f.name in request && f.name !in cache && n == f.name {
      assert FirstNamed(catalog, n) == Some(0);
    } else {
      var next := if f.name in request && f.name !in cache then cache[f.name := Downloaded(f, fetch)] else cache;
      assert FillCache(catalog, request, cache, fetch).contents == FillCache(catalog[1..], request, next, fetch).contents;
      assert n !in next;
      FillValue(catalog[1..], request, next, fetch, n);
      var k := FirstNamed(catalog[1..], n).value;
      assert FirstNamed(catalog, n) == Some(k + 1) && catalog[k + 1] == catalog[1..][k] by {
        assert catalog[0].name != n;
      }
    }
  }

  /** The download log lists exactly the newly cached names. */
  lemma {:induction false} FillFetched(catalog: seq<GuidelineFile>, request: seq<string>, cache: map<string, string>,
                                       fetch: (string, string) -> Result<string>)
    ensures forall n :: n in FillCache(catalog, request, cache, fetch).fetched
                        <==> n in FillCache(catalog, request, cache, fetch).contents && n !in cache
    decreases |catalog|
  {
    if |catalog| > 0 {
      var f := catalog[0];
      if f.name in request && f.name !in cache {
        FillFetched(catalog[1..], request, cache[f.name := Downloaded(f, fetch)], fetch);
      } else {
        FillFetched(catalog[1..], request, cache, fetch);
      }
    }
  }

  /** No name occurs twice. */
  predicate Distinct(xs: seq<string>)
  {
    forall k, l :: 0 <= k < l < |xs| ==> xs[k] != xs[l]
  }

  /** No name is downloaded twice, even when the catalog lists it twice. */
  lemma {:induction false} FillFetchesOnce(catalog: seq<GuidelineFile>, request: seq<string>, cache: map<string, string>,
                                           fetch: (string, string) -> Result<string>)
    ensures Distinct(FillCache(catalog, request, cache, fetch).fetched)
    decreases |catalog|
  {
    if |catalog| > 0 {
      var f := catalog[0];
      if f.name in request && f.name !in cache {
        var next := cache[f.name := Downloaded(f, fetch)];
        var rest := FillCache(catalog[1..], request, next, fetch);
        FillFetchesOnce(catalog[1..], request, next, fetch);
        FillFetched(catalog[1..], request, next, fetch);
        assert f.name !in rest.fetched;
        DistinctCons(f.name, rest.fetched);
      } else {
        FillFetchesOnce(catalog[1..], request, cache, fetch);
      }
    }
  }

  lemma {:induction false} DistinctCons(x: string, xs: seq<string>)
    requires Distinct(xs) && x !in xs
    ensures Distinct([x] + xs)
  {
    var ys := [x] + xs;
    forall k, l | 0 <= k < l < |ys|
      ensures ys[k] != ys[l]
    {
      assert ys[l] == xs[l - 1];
      if k > 0 {
        assert ys[k] == xs[k - 1];
      }
    }
  }

  /** When every requested catalog name is cached already, filling changes nothing and downloads nothing. */
  lemma {:induction false} FillNoOp(catalog: seq<GuidelineFile>, request: seq<string>, cache: map<string, string>,
                                    fetch: (string, string) -> Result<string>)
    requires forall n :: n in request && n in Names(catalog) ==> n in cache
    ensures FillCache(catalog, request, cache, fetch) == Filled(cache, [])
    decreases |catalog|
  {
    if |catalog| > 0 {
      assert Names(catalog) == [catalog[0].name] + Names(catalog[1..]);
      FillNoOp(catalog[1..], request, cache, fetch);
    }
  }

  /**
   * A second fill with the same request downloads nothing, whatever the
   * service answers this time: each name is fetched at most once across calls.
   */
  lemma {:induction false} FillTwice(catalog: seq<GuidelineFile>, request: seq<string>, cache: map<string, string>,
                                     fetch: (string, string) -> Result<string>, again: (string, string) -> Result<string>)
    ensures var first := FillCache(catalog, request, cache, fetch).contents;
            FillCache(catalog, request, first, again) == Filled(first, [])
  {
    var first := FillCache(catalog, request, cache, fetch).contents;
    FillNoOp(catalog, request, first, again);
  }

  /** One step of the catalog loop, read off `FillCache`. */
  lemma {:induction false} FillStep(catalog: seq<GuidelineFile>, i: nat, request: seq<string>, cache: map<string, string>,
                                    fetch: (string, string) -> Result<string>)
    requires i < |catalog|
    ensures var f := catalog[i];
            FillCache(catalog[i..], request, cache, fetch)
            == if f.name in request && f.name !in cache then
                 var rest := FillCache(catalog[i + 1..], request, cache[f.name := Downloaded(f, fetch)], fetch);
                 Filled(rest.contents, [f.name] + rest.fetched)
               else FillCache(catalog[i + 1..], request, cache, fetch)
  {
    assert catalog[i..][0] == catalog[i];
    assert catalog[i..][1..] == catalog[i + 1..];
  }

  /** The catalog loop itself, downloading as it goes. */
  method FillLoop(catalog: seq<GuidelineFile>, request: seq<string>, cache: map<string, string>,
                  fetch: (string, string) -> Result<string>)
    returns (contents: map<string, string>, fetched: seq<string>)
    ensures Filled(contents, fetched) == FillCache(catalog, request, cache, fetch)
  {
    ghost var total := FillCache(catalog, request, cache, fetch);
    contents := cache;
    fetched := [];
    var i := 0;
    assert catalog[0..] == catalog;
    while i < |catalog|
      invariant 0 <= i <= |catalog|
      invariant FillCache(catalog[i..], request, contents, fetch).contents == total.contents
      invariant fetched + FillCache(catalog[i..], request, contents, fetch).fetched == total.fetched
    {
      var f := catalog[i];
      FillStep(catalog, i, request, contents, fetch);
      if f.name in request && f.name !in contents {
        contents := contents[f.name := Downloaded(f, fetch)];
        fetched := fetched + [f.name];
      }
      i := i + 1;
    }
    assert catalog[i..] == [];
  }

  /**
   * `load_guideline_contents` with the session cache passed in and out: the
   * request is normalised (`None` is the TypeError), then, if the storage
   * service is up and the catalog non-empty, the catalog is walked and
   * missing requested names downloaded.
   */
  method LoadGuidelineContents(request: Json, show: Json -> string, cache: map<string, string>,
                               serviceUp: bool, catalog: seq<GuidelineFile>,
                               fetch: (string, string) -> Result<string>)
    returns (result: Option<map<string, string>>, fetched: seq<string>)
    ensures result.None? <==> NormaliseRequest(request, show).None?
    ensures result.None? || !serviceUp || |catalog| == 0 ==> fetched == []
    ensures result.Some? && !serviceUp ==> result.value == cache
    ensures result.Some? && serviceUp ==>
              Filled(result.value, fetched) == FillCache(catalog, NormaliseRequest(request, show).value, cache, fetch)
  {
    var names := NormaliseRequest(request, show);
    if names.None? {
      result, fetched := None, [];
    } else if !serviceUp || |catalog| == 0 {
      result, fetched := Some(cache), [];
    } else {
      var contents;
      contents, fetched := FillLoop(catalog, names.value, cache, fetch);
      result := Some(contents);
    }
  }
}

=== FILE: Json.dfy ===
/**
 * The Python value `json.loads` hands back, with the few operations the
 * workflow applies to it: truthiness, `str()`, dict lookup, iteration, and
 * the "flatten the dict's list and string values" loop both normalisers share.
 */
module Json {
  import opened Wrappers
  import opened Seqs

  /**
   * A parsed JSON value. An object's fields are in insertion order; the dicts
   * `json.loads` builds have distinct keys, and lookups take the first match.
   */
  datatype Json =
    | Null
    | Bool(b: bool)
    | Num(n: real)
    | Str(s: string)
    | Arr(items: seq<Json>)
    | Obj(fields: seq<(string, Json)>)

  /** Python's `bool(j)`. */
  predicate Truthy(j: Json)
  {
    match j
    case Null => false
    case Bool(b) => b
    case Num(n) => n != 0.0
    case Str(s) => s != ""
    case Arr(items) => items != []
    case Obj(fields) => fields != []
  }

  /** The falsy values are exactly `None`, `False`, zero, `""`, `[]` and `{}`. */
  lemma {:induction false} FalsyValues(j: Json)
    ensures !Truthy(j) <==> j == Null || j == Bool(false) || j == Num(0.0) || j == Str("") || j == Arr([]) || j == Obj([])
  {
  }

  /**
   * Python's `str(j)`: a string is itself; any other value is rendered by
   * `show`, which stands for Python's `repr`-style formatting.
   */
  function ToText(j: Json, show: Json -> string): (r: string)
    // a string's text is empty exactly when the string is falsy
    ensures j.Str? ==> (r != "" <==> Truthy(j))
  {
    if j.Str? then j.s else show(j)
  }

  /** `key in d` together with `d[key]`. */
  function Lookup(fields: seq<(string, Json)>, key: string): (r: Option<Json>)
    ensures r.None? <==> forall k :: 0 <= k < |fields| ==> fields[k].0 != key
    ensures r.Some? ==> exists k :: 0 <= k < |fields| && fields[k] == (key, r.value)
  {
    if |fields| == 0 then None
    else if fields[0].0 == key then Some(fields[0].1)
    else
      var r := Lookup(fields[1..], key);
      assert forall k :: 1 <= k < |fields| ==> fields[k] == fields[1..][k - 1];
      r
  }

  /** A Python list of strings. */
  function Listed(names: seq<string>): (r: Json)
    ensures r.Arr? && |r.items| == |names|
    ensures forall k :: 0 <= k < |names| ==> r.items[k] == Str(names[k])
  {
    Arr(seq(|names|, k requires 0 <= k < |names| => Str(names[k])))
  }

  /** What one dict value adds to the flattened list: a list's items, a string itself, or nothing. */
  function Contribution(v: Json): seq<Json>
  {
    match v
    case Arr(items) => items
    case Str(_) => [v]
    case _ => []
  }

  /** `v` is one of the things a dict value contributes when flattened. */
  predicate ContributedBy(x: Json, v: Json)
  {
    (v.Str? && x == v) || (v.Arr? && x in v.items)
  }

  /**
   * The loop over `d.values()` that extends with list values and appends
   * string values, skipping every other kind of value.
   */
  function FlattenValues(fields: seq<(string, Json)>): (r: seq<Json>)
    ensures forall x :: x in r ==> exists k :: 0 <= k < |fields| && ContributedBy(x, fields[k].1)
    ensures forall k :: 0 <= k < |fields| && fields[k].1.Str? ==> fields[k].1 in r
    ensures forall k, x :: 0 <= k < |fields| && fields[k].1.Arr? && x in fields[k].1.items ==> x in r
  {
    if |fields| == 0 then []
    else
      var rest := FlattenValues(fields[1..]);
      assert forall k :: 1 <= k < |fields| ==> fields[k] == fields[1..][k - 1];
      Contribution(fields[0].1) + rest
  }

  /** Flattening distributes over the dict's fields. */
  lemma {:induction false} FlattenAppend(a: seq<(string, Json)>, b: seq<(string, Json)>)
    ensures FlattenValues(a + b) == FlattenValues(a) + FlattenValues(b)
  {
    if |a| > 0 {
      assert (a + b)[0] == a[0];
      assert (a + b)[1..] == a[1..] + b;
      FlattenAppend(a[1..], b);
    } else {
      assert a + b == b;
    }
  }

  /**
   * `for x in v` at the head of a list comprehension: a list yields its items,
   * a string its characters, a dict its keys; anything else raises TypeError (`None`).
   */
  function Iterate(v: Json): (r: Option<seq<Json>>)
    ensures r.None? <==> v.Null? || v.Bool? || v.Num?
    ensures v.Arr? ==> r == Some(v.items)
    ensures v.Str? ==> r.Some? && |r.value| == |v.s|
                       && forall k :: 0 <= k < |v.s| ==> r.value[k] == Str([v.s[k]])
    ensures v.Obj? ==> r.Some? && |r.value| == |v.fields|
                       && forall k :: 0 <= k < |v.fields| ==> r.value[k] == Str(v.fields[k].0)
  {
    match v
    case Arr(items) => Some(items)
    case Str(s) => Some(seq(|s|, k requires 0 <= k < |s| => Str([s[k]])))
    case Obj(fields) => Some(seq(|fields|, k requires 0 <= k < |fields| => Str(fields[k].0)))
    case _ => None
  }

  /** `str(x)` of an item the comprehension keeps, or nothing for a falsy item. */
  function TextIfTruthy(show: Json -> string, x: Json): (r: Option<string>)
    ensures r.None? <==> !Truthy(x)
  {
    if Truthy(x) then Some(ToText(x, show)) else None
  }

  /** `[str(x) for x in items if x]`. */
  function Kept(items: seq<Json>, show: Json -> string): (r: seq<string>)
    ensures |r| <= |items|
  {
    FilterMap(items, x => TextIfTruthy(show, x))
  }

  /** `Kept` distributes over concatenation. */
  lemma {:induction false} KeptAppend(a: seq<Json>, b: seq<Json>, show: Json -> string)
    ensures Kept(a + b, show) == Kept(a, show) + Kept(b, show)
  {
    FilterMapAppend(a, b, x => TextIfTruthy(show, x));
  }

  /**
   * `Kept` keeps order: a truthy item's text sits at the position given by the
   * number of truthy items before it.
   */
  lemma {:induction false} KeptKeepsOrder(items: seq<Json>, show: Json -> string, i: nat)
    requires i < |items| && Truthy(items[i])
    ensures |Kept(items[..i], show)| < |Kept(items, show)|
    ensures Kept(items, show)[|Kept(items[..i], show)|] == ToText(items[i], show)
  {
    FilterMapPlaces(items, x => TextIfTruthy(show, x), i);
  }

  /** Every kept text comes from a truthy item at that position or later. */
  lemma {:induction false} KeptSources(items: seq<Json>, show: Json -> string, k: nat)
    requires k < |Kept(items, show)|
    ensures exists i :: k <= i < |items| && Truthy(items[i]) && Kept(items, show)[k] == ToText(items[i], show)
  {
    FilterMapSources(items, x => TextIfTruthy(show, x), k);
    var i :| k <= i < |items| && TextIfTruthy(show, items[i]) == Some(Kept(items, show)[k]);
    assert Truthy(items[i]);
  }

  /** On a list of strings `Kept` drops exactly the empty strings and keeps the rest in order. */
  lemma {:induction false} KeptListed(names: seq<string>, show: Json -> string)
    ensures Kept(Listed(names).items, show) == NonEmpty(names)
    decreases |names|
  {
    var items := Listed(names).items;
    if |names| > 0 {
      assert items == [Str(names[0])] + Listed(names[1..]).items;
      KeptAppend([Str(names[0])], Listed(names[1..]).items, show);
      FilterMapSingle(Str(names[0]), x => TextIfTruthy(show, x));
      KeptListed(names[1..], show);
    } else {
      assert items == [];
    }
  }

  /** The non-empty strings of `names`, in order. */
  function NonEmpty(names: seq<string>): (r: seq<string>)
    ensures |r| <= |names|
    ensures forall k :: 0 <= k < |r| ==> r[k] != "" && r[k] in names
    ensures forall x :: x in names && x != "" ==> x in r
    ensures (forall k :: 0 <= k < |names| ==> names[k] != "") ==> r == names
  {
    if |names| == 0 then []
    else
      var rest := NonEmpty(names[1..]);
      assert forall x :: x in names[1..] ==> x in names;
      if names[0] == "" then rest else [names[0]] + rest
  }
}

=== FILE: Selection.dfy ===
/**
 * What `generate_response` makes of the guideline selector's reply: the
 * parse chain (direct JSON, then the first bracketed slice, then the first
 * three catalog names), the shape normaliser, the truthiness filter with
 * string conversion, and the final fallback when nothing survives.
 */
module Selection {
  import opened Wrappers
  import opened Seqs
  import opened Text
  import opened Json

  /** The smaller of two integers. */
  function Min(a: int, b: int): int
  {
    if a <= b then a else b
  }

  /** `filename_list[:3]`: the catalog's first three names, or all of them if fewer. */
  function Fallback(names: seq<string>): (r: seq<string>)
    ensures |r| == Min(3, |names|)
    ensures r == names[..|r|]
    ensures |r| == 0 <==> |names| == 0
  {
    names[..Min(3, |names|)]
  }

  /**
   * The value `selected_filenames` holds once the parse chain is done: the
   * reply itself when it parses, else its first bracketed slice when that
   * parses, else the fallback list.
   */
  function Decode(reply: string, parse: string -> Option<Json>, names: seq<string>): (r: Json)
    ensures parse(reply).Some? ==> r == parse(reply).value
    ensures r != Listed(Fallback(names)) ==>
              parse(reply) == Some(r)
              || (FirstBracketed(reply).Some? && parse(FirstBracketed(reply).value) == Some(r))
  {
    match parse(reply)
    case Some(j) => j
    case None =>
      match FirstBracketed(reply)
      case None => Listed(Fallback(names))
      case Some(slice) =>
        match parse(slice)
        case Some(j) => j
        case None => Listed(Fallback(names))
  }

  /** Both parse attempts fail: the reply is not JSON and has no bracketed slice that is. */
  predicate Unparseable(reply: string, parse: string -> Option<Json>)
  {
    parse(reply).None?
    && (FirstBracketed(reply).None? || parse(FirstBracketed(reply).value).None?)
  }

  /** The dict holds a `"files"` key whose value is a list. */
  predicate FilesIsList(fields: seq<(string, Json)>)
  {
    Lookup(fields, "files").Some? && Lookup(fields, "files").value.Arr?
  }

  /**
   * The shape normaliser as evidently intended: a dict whose `"files"` is a
   * list gives that list, any other dict its flattened list and string
   * values, a string a singleton, a list itself, and any other value the
   * fallback list. The code as written raises on the second case; see
   * `SelectorItemsAsWritten`.
   */
  function SelectorItems(j: Json, names: seq<string>): (r: seq<Json>)
    ensures j.Arr? ==> r == j.items
    ensures j.Str? ==> r == [j]
    ensures j.Obj? ==> forall x :: x in r ==> exists k :: 0 <= k < |j.fields| && ContributedBy(x, j.fields[k].1)
    ensures (j.Null? || j.Bool? || j.Num?) ==> r == Listed(Fallback(names)).items
  {
    match j
    case Obj(fields) =>
      var files := Lookup(fields, "files");
      if files.Some? && files.value.Arr? then files.value.items else FlattenValues(fields)
    case Str(_) => [j]
    case Arr(items) => items
    case _ => Listed(Fallback(names)).items
  }

  /**
   * The shape normaliser as written. For a dict without a list under
   * `"files"`, the name `selected_filenames` is rebound to a fresh empty list
   * before `.values()` is called on it, which raises AttributeError (`None`
   * here). Every other value is treated as the intended normaliser treats it.
   */
  function SelectorItemsAsWritten(j: Json, names: seq<string>): (r: Option<seq<Json>>)
    ensures r.None? <==> j.Obj? && !FilesIsList(j.fields)
    ensures r.Some? ==> r.value == SelectorItems(j, names)
  {
    match j
    case Obj(fields) =>
      var files := Lookup(fields, "files");
      if files.Some? && files.value.Arr? then Some(files.value.items) else None
    case Str(_) => Some([j])
    case Arr(items) => Some(items)
    case _ => Some(Listed(Fallback(names)).items)
  }

  /**
   * From the decoded value to the final selection: keep the truthy items as
   * strings and fall back to the first three catalog names if none is left.
   */
  function Normalise(j: Json, show: Json -> string, names: seq<string>): (r: seq<string>)
    ensures |names| > 0 ==> |r| > 0
    ensures Kept(SelectorItems(j, names), show) != [] ==> r == Kept(SelectorItems(j, names), show)
    ensures Kept(SelectorItems(j, names), show) == [] ==> r == Fallback(names)
  {
    var kept := Kept(SelectorItems(j, names), show);
    if kept == [] then Fallback(names) else kept
  }

  /**
   * The selection `generate_response` evidently means to pass on, from the
   * selector's raw reply, with a dict's values flattened as intended.
   */
  function SelectGuidelines(reply: string, parse: string -> Option<Json>, show: Json -> string, names: seq<string>): (r: seq<string>)
    ensures |names| > 0 ==> |r| > 0
  {
    Normalise(Decode(reply, parse, names), show, names)
  }

  /**
   * The selection as the code computes it: `None` for the AttributeError a
   * dict reply without a list under `"files"` raises; otherwise the intended
   * selection, which it then always equals.
   */
  function SelectGuidelinesAsWritten(reply: string, parse: string -> Option<Json>, show: Json -> string,
                                     names: seq<string>): (r: Option<seq<string>>)
    ensures r.None? <==> Decode(reply, parse, names).Obj? && !FilesIsList(Decode(reply, parse, names).fields)
    ensures r.Some? ==> r.value == SelectGuidelines(reply, parse, show, names)
    ensures r.Some? && |names| > 0 ==> |r.value| > 0
  {
    match SelectorItemsAsWritten(Decode(reply, parse, names), names)
    case None => None
    case Some(items) =>
      var kept := Kept(items, show);
      Some(if kept == [] then Fallback(names) else kept)
  }

  /**
   * The discrepancy on the smallest input: a reply of `{}` makes the code
   * raise, where the intended normaliser falls back to the first three names.
   */
  lemma {:induction false} EmptyDictReplyRaises(reply: string, parse: string -> Option<Json>, show: Json -> string,
                                                names: seq<string>)
    requires parse(reply) == Some(Obj([]))
    ensures SelectGuidelinesAsWritten(reply, parse, show, names) == None
    ensures SelectGuidelines(reply, parse, show, names) == Fallback(names)
  {
    assert FlattenValues([]) == [];
    assert Kept([], show) == [];
  }

  /** Any dict reply without a list under `"files"` raises in the code as written. */
  lemma {:induction false} FilesNotListRaises(reply: string, parse: string -> Option<Json>, show: Json -> string,
                                              names: seq<string>)
    requires parse(reply).Some? && parse(reply).value.Obj? && !FilesIsList(parse(reply).value.fields)
    ensures SelectGuidelinesAsWritten(reply, parse, show, names) == None
  {
  }

  // ---------------------------------------------------------------------
  // Properties
  // ---------------------------------------------------------------------

  /**
   * Every selected name is either the string form of a truthy item of the
   * normalised reply or one of the fallback names.
   */
  lemma {:induction false} SelectionSources(j: Json, show: Json -> string, names: seq<string>, k: nat)
    requires k < |Normalise(j, show, names)|
    ensures Normalise(j, show, names)[k] in Fallback(names)
            || exists x :: x in SelectorItems(j, names) && Truthy(x) && ToText(x, show) == Normalise(j, show, names)[k]
  {
    var items := SelectorItems(j, names);
    var kept := Kept(items, show);
    if kept != [] {
      FilterMapSources(items, x => TextIfTruthy(show, x), k);
      var i :| k <= i < |items| && TextIfTruthy(show, items[i]) == Some(kept[k]);
      assert items[i] in items;
    }
  }

  /** A reply that is a JSON list of non-empty names is taken exactly as written. */
  lemma {:induction false} DirectListKept(reply: string, parse: string -> Option<Json>, show: Json -> string,
                                          names: seq<string>, chosen: seq<string>)
    requires parse(reply) == Some(Listed(chosen))
    requires |chosen| > 0 && forall k :: 0 <= k < |chosen| ==> chosen[k] != ""
    ensures SelectGuidelines(reply, parse, show, names) == chosen
  {
    KeptListed(chosen, show);
  }

  /**
   * When the reply itself does not parse but its first bracketed slice does,
   * the selection is what a reply consisting of that slice alone would give.
   */
  lemma {:induction false} BracketRescue(reply: string, parse: string -> Option<Json>, show: Json -> string, names: seq<string>)
    requires parse(reply).None?
    requires FirstBracketed(reply).Some?
    requires parse(FirstBracketed(reply).value).Some?
    ensures SelectGuidelines(reply, parse, show, names)
            == SelectGuidelines(FirstBracketed(reply).value, parse, show, names)
  {
  }

  /**
   * When neither parse succeeds the selection is drawn from the fallback
   * names, and is exactly the fallback when those names are non-empty.
   */
  lemma {:induction false} UnparseableFallsBack(reply: string, parse: string -> Option<Json>, show: Json -> string, names: seq<string>)
    requires Unparseable(reply, parse)
    ensures forall k :: 0 <= k < |SelectGuidelines(reply, parse, show, names)| ==>
              SelectGuidelines(reply, parse, show, names)[k] in Fallback(names)
    ensures (forall k :: 0 <= k < |names| ==> names[k] != "") ==>
              SelectGuidelines(reply, parse, show, names) == Fallback(names)
  {
    var fb := Fallback(names);
    KeptListed(fb, show);
    assert forall x :: x in NonEmpty(fb) ==> x in fb;
  }

  /** A reply whose value is `null`, a boolean or a number falls back as well. */
  lemma {:induction false} ScalarFallsBack(reply: string, parse: string -> Option<Json>, show: Json -> string, names: seq<string>)
    requires parse(reply).Some?
    requires parse(reply).value.Null? || parse(reply).value.Bool? || parse(reply).value.Num?
    requires forall k :: 0 <= k < |names| ==> names[k] != ""
    ensures SelectGuidelines(reply, parse, show, names) == Fallback(names)
  {
    KeptListed(Fallback(names), show);
  }

  /** A dict whose `"files"` is a list is reduced to that list, whatever its other keys hold. */
  lemma {:induction false} FilesListWins(fields: seq<(string, Json)>, files: seq<Json>, names: seq<string>)
    requires Lookup(fields, "files") == Some(Arr(files))
    ensures SelectorItems(Obj(fields), names) == files
  {
  }

  /**
   * As intended, a dict whose `"files"` is not a list has all its values
   * flattened, `"files"` included.
   */
  lemma {:induction false} FilesNotListFlattened(fields: seq<(string, Json)>, names: seq<string>)
    requires !FilesIsList(fields)
    ensures SelectorItems(Obj(fields), names) == FlattenValues(fields)
  {
  }

  /**
   * Normalising the selection again, as a JSON list, changes nothing, given
   * that Python's `str` of a value is never empty and no catalog name is.
   */
  lemma {:induction false} NormaliseIdempotent(j: Json, show: Json -> string, names: seq<string>)
    requires forall x :: show(x) != ""
    requires forall k :: 0 <= k < |names| ==> names[k] != ""
    ensures Normalise(Listed(Normalise(j, show, names)), show, names) == Normalise(j, show, names)
  {
    var r := Normalise(j, show, names);
    var kept := Kept(SelectorItems(j, names), show);
    KeptListed(r, show);
    if kept == [] {
      assert r == Fallback(names);
    } else {
      KeptNonEmpty(SelectorItems(j, names), show);
    }
  }

  /** With a `str` that never yields `""`, every kept item is a non-empty string. */
  lemma {:induction false} KeptNonEmpty(items: seq<Json>, show: Json -> string)
    requires forall x :: show(x) != ""
    ensures forall k :: 0 <= k < |Kept(items, show)| ==> Kept(items, show)[k] != ""
  {
    var kept := Kept(items, show);
    forall k | 0 <= k < |kept|
      ensures kept[k] != ""
    {
      FilterMapSources(items, x => TextIfTruthy(show, x), k);
      var i :| k <= i < |items| && TextIfTruthy(show, items[i]) == Some(kept[k]);
    }
  }

  /** The leftmost bracketed slice: no `[` before it and no `]` inside it. */
  lemma {:induction false} BracketedAt(pre: string, mid: string, post: string)
    requires '[' !in pre && ']' !in mid
    ensures FirstBracketed(pre + "[" + mid + "]" + post) == Some("[" + mid + "]")
  {
    BracketIndices(pre, mid, post);
    SliceAtIndices(pre + "[" + mid + "]" + post, |pre|, |mid|);
    BracketSlice(pre, mid, post);
  }

  /** The bracketed part of a reply, as a slice. */
  lemma {:induction false} BracketSlice(pre: string, mid: string, post: string)
    ensures (pre + "[" + mid + "]" + post)[|pre|..|pre| + |mid| + 2] == "[" + mid + "]"
  {
  }

  /** Where `IndexOf` finds the `[` and, after it, the `]` of a bracketed reply. */
  lemma {:induction false} BracketIndices(pre: string, mid: string, post: string)
    requires '[' !in pre && ']' !in mid
    ensures IndexOf(pre + "[" + mid + "]" + post, '[') == Some(|pre|)
    ensures IndexOf((pre + "[" + mid + "]" + post)[|pre| + 1..], ']') == Some(|mid|)
  {
    var s := pre + "[" + mid + "]" + post;
    var n := |pre|;
    assert s[..n] == pre;
    FirstIndexIs(s, '[', n);
    var t := s[n + 1..];
    assert t == mid + "]" + post;
    assert t[..|mid|] == mid;
    FirstIndexIs(t, ']', |mid|);
  }

  /** The slice `FirstBracketed` returns once both searches have succeeded. */
  lemma {:induction false} SliceAtIndices(s: string, i: nat, j: nat)
    requires IndexOf(s, '[') == Some(i) && IndexOf(s[i + 1..], ']') == Some(j)
    ensures FirstBracketed(s) == Some(s[i..i + j + 2])
  {
  }

  /** `IndexOf` finds the occurrence that has none before it. */
  lemma {:induction false} FirstIndexIs(s: string, c: char, n: nat)
    requires n < |s| && s[n] == c && c !in s[..n]
    ensures IndexOf(s, c) == Some(n)
  {
    var r := IndexOf(s, c);
    assert forall k :: 0 <= k < n ==> s[..n][k] == s[k];
    assert forall k :: 0 <= k < r.value ==> s[..r.value][k] == s[k];
  }

  /** A reply with no `[` has no bracketed slice. */
  lemma {:induction false} NoBracketInPlainText(s: string)
    requires '[' !in s
    ensures FirstBracketed(s) == None
  {
  }

  /** A `]` that only comes before the first `[` does not close it. */
  lemma {:induction false} CloseBeforeOpen(pre: string, post: string)
    requires '[' !in pre && ']' !in post
    ensures FirstBracketed(pre + post) == None
  {
  }
}

=== FILE: Seqs.dfy ===
/** Sequence combinators shared by the parsers and normalisers. */
module Seqs {
  import opened Wrappers

  /**
   * Applies `f` to each element in order and keeps the `Some` results:
   * the shape of every "for x in xs: if ok(x): out.append(g(x))" loop here.
   */
  function FilterMap<A, B>(xs: seq<A>, f: A -> Option<B>): (r: seq<B>)
    ensures |r| <= |xs|
  {
    if |xs| == 0 then []
    else
      match f(xs[0])
      case None => FilterMap(xs[1..], f)
      case Some(y) => [y] + FilterMap(xs[1..], f)
  }

  /** `FilterMap` distributes over concatenation. */
  lemma {:induction false} FilterMapAppend<A, B>(xs: seq<A>, ys: seq<A>, f: A -> Option<B>)
    ensures FilterMap(xs + ys, f) == FilterMap(xs, f) + FilterMap(ys, f)
  {
    if |xs| > 0 {
      assert (xs + ys)[0] == xs[0];
      assert (xs + ys)[1..] == xs[1..] + ys;
      FilterMapAppend(xs[1..], ys, f);
    } else {
      assert xs + ys == ys;
    }
  }

  /** On one element `FilterMap` keeps or drops it. */
  lemma {:induction false} FilterMapSingle<A, B>(x: A, f: A -> Option<B>)
    ensures FilterMap([x], f) == if f(x).Some? then [f(x).value] else []
  {
    assert [x][1..] == [];
  }

  /** Every result comes from some element, in order: the `k`-th result comes from an element at index at least `k`. */
  lemma {:induction false} FilterMapSources<A, B>(xs: seq<A>, f: A -> Option<B>, k: nat)
    requires k < |FilterMap(xs, f)|
    ensures exists i :: k <= i < |xs| && f(xs[i]) == Some(FilterMap(xs, f)[k])
  {
    var r := FilterMap(xs, f);
    match f(xs[0])
    case None =>
      FilterMapSources(xs[1..], f, k);
      var i :| k <= i < |xs[1..]| && f(xs[1..][i]) == Some(FilterMap(xs[1..], f)[k]);
      assert xs[1..][i] == xs[i + 1];
    case Some(y) =>
      if k == 0 {
        assert f(xs[0]) == Some(r[0]);
      } else {
        FilterMapSources(xs[1..], f, k - 1);
        var i :| k - 1 <= i < |xs[1..]| && f(xs[1..][i]) == Some(FilterMap(xs[1..], f)[k - 1]);
        assert xs[1..][i] == xs[i + 1];
      }
  }

  /** When `f` succeeds on every element, `FilterMap` is a plain map: nothing dropped, order kept. */
  lemma {:induction false} FilterMapTotal<A, B>(xs: seq<A>, f: A -> Option<B>)
    requires forall i :: 0 <= i < |xs| ==> f(xs[i]).Some?
    ensures |FilterMap(xs, f)| == |xs|
    ensures forall i :: 0 <= i < |xs| ==> FilterMap(xs, f)[i] == f(xs[i]).value
  {
    if |xs| > 0 {
      FilterMapTotal(xs[1..], f);
    }
  }

  /** When `f` fails on every element, nothing is kept. */
  lemma {:induction false} FilterMapNone<A, B>(xs: seq<A>, f: A -> Option<B>)
    requires forall i :: 0 <= i < |xs| ==> f(xs[i]).None?
    ensures FilterMap(xs, f) == []
  {
    if |xs| > 0 {
      FilterMapNone(xs[1..], f);
    }
  }

  /**
   * Order is kept and nothing kept is lost: an element `f` accepts lands at
   * the position given by the number of accepted elements before it.
   */
  lemma {:induction false} FilterMapPlaces<A, B>(xs: seq<A>, f: A -> Option<B>, i: nat)
    requires i < |xs| && f(xs[i]).Some?
    ensures |FilterMap(xs[..i], f)| < |FilterMap(xs, f)|
    ensures FilterMap(xs, f)[|FilterMap(xs[..i], f)|] == f(xs[i]).value
  {
    assert xs == xs[..i] + ([xs[i]] + xs[i + 1..]);
    FilterMapAppend(xs[..i], [xs[i]] + xs[i + 1..], f);
    FilterMapAppend([xs[i]], xs[i + 1..], f);
    FilterMapSingle(xs[i], f);
  }

  /** Later accepted elements land strictly later. */
  lemma {:induction false} FilterMapOrdered<A, B>(xs: seq<A>, f: A -> Option<B>, i: nat, j: nat)
    requires i < j <= |xs| && f(xs[i]).Some?
    ensures |FilterMap(xs[..i], f)| < |FilterMap(xs[..j], f)|
  {
    var ys := xs[..j];
    assert ys[..i] == xs[..i];
    FilterMapPlaces(ys, f, i);
  }
}

=== FILE: Text.dfy ===
/**
 * The few Python `str` operations the workflow relies on: `find`, `split`,
 * `split(sep, 1)`, `replace`, `strip()`, and the leftmost non-greedy match of
 * the regular expression `\[.*?\]` (with DOTALL).
 */
module Text {
  import opened Wrappers

  /** `pat` occurs in `s` starting at index `i`. */
  predicate OccursAt(s: string, pat: string, i: nat)
  {
    i + |pat| <= |s| && s[i..i + |pat|] == pat
  }

  /** Python's `pat in s`. */
  predicate Contains(s: string, pat: string)
  {
    exists i: nat | i <= |s| :: OccursAt(s, pat, i)
  }

  /** Leftmost occurrence of `pat` at or after index `k`. */
  function FindFrom(s: string, pat: string, k: nat): (r: Option<nat>)
    requires k <= |s|
    decreases |s| - k
    ensures r.Some? ==> k <= r.value && OccursAt(s, pat, r.value)
    ensures r.Some? ==> forall j: nat :: k <= j < r.value ==> !OccursAt(s, pat, j)
    ensures r.None? ==> forall j: nat :: k <= j ==> !OccursAt(s, pat, j)
  {
    if k + |pat| > |s| then None
    else if s[k..k + |pat|] == pat then Some(k)
    else FindFrom(s, pat, k + 1)
  }

  /** Python's `s.find(pat)`, with `None` for -1. */
  function FindFirst(s: string, pat: string): (r: Option<nat>)
    ensures r.None? <==> !Contains(s, pat)
    ensures r.Some? ==> OccursAt(s, pat, r.value)
    ensures r.Some? ==> forall j: nat :: j < r.value ==> !OccursAt(s, pat, j)
  {
    FindFrom(s, pat, 0)
  }

  /** An occurrence inside a slice is an occurrence in the whole string. */
  lemma {:induction false} OccursInSlice(s: string, pat: string, lo: nat, hi: nat, j: nat)
    requires lo <= hi <= |s|
    requires OccursAt(s[lo..hi], pat, j)
    ensures OccursAt(s, pat, lo + j)
  {
    var inner := s[lo..hi][j..j + |pat|];
    var outer := s[lo + j..lo + j + |pat|];
    forall k | 0 <= k < |pat| ensures inner[k] == outer[k] { }
    assert inner == outer;
  }

  /** Nothing before the leftmost occurrence contains the pattern. */
  lemma {:induction false} BeforeFirst(s: string, pat: string, i: nat)
    requires |pat| > 0
    requires FindFirst(s, pat) == Some(i)
    ensures !Contains(s[..i], pat)
  {
    assert s[0..i] == s[..i];
    if Contains(s[..i], pat) {
      var j: nat :| j <= |s[..i]| && OccursAt(s[..i], pat, j);
      OccursInSlice(s, pat, 0, i, j);
    }
  }

  /** A single-character pattern occurs exactly where that character is. */
  lemma {:induction false} CharOccurs(s: string, c: char, i: nat)
    ensures OccursAt(s, [c], i) <==> i < |s| && s[i] == c
  {
    if i < |s| {
      assert s[i..i + 1] == [s[i]];
    }
  }

  /** Concatenates `parts` with `sep` between consecutive parts: Python's `sep.join(parts)`. */
  function Join(parts: seq<string>, sep: string): string
  {
    if |parts| == 0 then ""
    else if |parts| == 1 then parts[0]
    else parts[0] + sep + Join(parts[1..], sep)
  }

  /** Python's `s.split(sep)` for a non-empty separator. */
  function Split(s: string, sep: string): (parts: seq<string>)
    requires |sep| > 0
    decreases |s|
    ensures |parts| >= 1
    ensures forall k :: 0 <= k < |parts| ==> !Contains(parts[k], sep)
    ensures Join(parts, sep) == s
    // the first cut is at the leftmost occurrence, as Python's scan from the left makes it
    ensures |parts| > 1 ==> OccursAt(s, sep, |parts[0]|)
    ensures |parts| > 1 ==> forall j: nat :: j < |parts[0]| ==> !OccursAt(s, sep, j)
  {
    match FindFirst(s, sep)
    case None => [s]
    case Some(i) =>
      var head := s[..i];
      var rest := Split(s[i + |sep|..], sep);
      BeforeFirst(s, sep, i);
      assert s[i..i + |sep|] == sep;
      assert s == head + s[i..i + |sep|] + s[i + |sep|..];
      [head] + rest
  }

  /** Python's `s.split(sep, 1)`, with `None` when the result would have one element. */
  function SplitOnce(s: string, sep: string): (r: Option<(string, string)>)
    requires |sep| > 0
    ensures r.None? <==> !Contains(s, sep)
    ensures r.Some? ==> r.value.0 + sep + r.value.1 == s
    ensures r.Some? ==> !Contains(r.value.0, sep)
    ensures r.Some? ==> forall j: nat :: j < |r.value.0| ==> !OccursAt(s, sep, j)
  {
    match FindFirst(s, sep)
    case None => None
    case Some(i) =>
      BeforeFirst(s, sep, i);
      assert s[i..i + |sep|] == sep;
      assert s == s[..i] + s[i..i + |sep|] + s[i + |sep|..];
      Some((s[..i], s[i + |sep|..]))
  }

  /** Python's `s.replace(pattern, replacement)` for a non-empty `pattern`. */
  function Replace(s: string, pattern: string, replacement: string): (r: string)
    requires |pattern| > 0
    ensures !Contains(s, pattern) ==> r == s
    ensures replacement == pattern ==> r == s
  {
    Join(Split(s, pattern), replacement)
  }

  // ---------------------------------------------------------------------
  // Leftmost occurrences in concatenations
  // ---------------------------------------------------------------------

  /** The last character of `pat` appears nowhere else in it (true of the start marker). */
  predicate LastCharUnique(pat: string)
  {
    |pat| > 0 && forall k :: 0 <= k < |pat| - 1 ==> pat[k] != pat[|pat| - 1]
  }

  /** A window lying inside `x` of `x + y` is a window of `x`. */
  lemma {:induction false} WindowLeft(x: string, y: string, pat: string, j: nat)
    requires j + |pat| <= |x|
    ensures OccursAt(x + y, pat, j) <==> OccursAt(x, pat, j)
  {
    assert (x + y)[j..j + |pat|] == x[j..j + |pat|];
  }

  /** A window lying inside `y` of `x + y` is a window of `y`. */
  lemma {:induction false} WindowRight(x: string, y: string, pat: string, j: nat)
    requires |x| <= j
    ensures OccursAt(x + y, pat, j) <==> OccursAt(y, pat, j - |x|)
  {
    if j + |pat| <= |x| + |y| {
      assert (x + y)[j..j + |pat|] == y[j - |x|..j - |x| + |pat|];
    }
  }

  /** A window whose character at offset `k` differs from `pat[k]` is no occurrence. */
  lemma {:induction false} WindowMismatch(s: string, pat: string, j: nat, k: nat)
    requires j + |pat| <= |s| && k < |pat|
    requires s[j + k] != pat[k]
    ensures !OccursAt(s, pat, j)
  {
    assert s[j..j + |pat|][k] == s[j + k];
  }

  /**
   * When `x` does not contain `pat` and `pat` has no repeated last character,
   * the leftmost occurrence of `pat` in `x + pat + y` is the one right after `x`.
   */
  lemma {:induction false} FirstAfterClean(x: string, pat: string, y: string)
    requires LastCharUnique(pat)
    requires !Contains(x, pat)
    ensures FindFirst(x + pat + y, pat) == Some(|x|)
  {
    var s := x + pat + y;
    assert OccursAt(s, pat, |x|) by { assert s[|x|..|x| + |pat|] == pat; }
    forall j: nat | j < |x|
      ensures !OccursAt(s, pat, j)
    {
      if j + |pat| <= |x| {
        WindowLeft(x, pat + y, pat, j);
        assert s == x + (pat + y);
      } else {
        var m := j + |pat| - 1 - |x|;
        assert s[j + |pat| - 1] == pat[m];
        WindowMismatch(s, pat, j, |pat| - 1);
      }
    }
  }

  /** `Split` peels off a clean prefix followed by the separator. */
  lemma {:induction false} SplitAfterClean(x: string, sep: string, y: string)
    requires LastCharUnique(sep)
    requires !Contains(x, sep)
    ensures Split(x + sep + y, sep) == [x] + Split(y, sep)
  {
    FirstAfterClean(x, sep, y);
    var s := x + sep + y;
    assert s[..|x|] == x;
    assert s[|x| + |sep|..] == y;
  }

  /**
   * When `c` is not a character of `pat`, the leftmost occurrence of `pat` in
   * `x + [c] + pat + y` is the one right after `c`, provided `x` has none.
   */
  lemma {:induction false} FirstAfterSeparator(x: string, c: char, pat: string, y: string)
    requires c !in pat
    requires !Contains(x, pat)
    ensures FindFirst(x + [c] + pat + y, pat) == Some(|x| + 1)
  {
    var s := x + [c] + pat + y;
    assert OccursAt(s, pat, |x| + 1) by { assert s[|x| + 1..|x| + 1 + |pat|] == pat; }
    forall j: nat | j < |x| + 1
      ensures !OccursAt(s, pat, j)
    {
      if j + |pat| <= |x| {
        WindowLeft(x, [c] + pat + y, pat, j);
        assert s == x + ([c] + pat + y);
      } else {
        assert s[|x|] == c;
        assert pat[|x| - j] in pat;
        WindowMismatch(s, pat, j, |x| - j);
      }
    }
  }

  /** A character absent from `pat` separates: occurrences cannot straddle it. */
  lemma {:induction false} NoneAcrossSeparator(x: string, c: char, y: string, pat: string)
    requires c !in pat
    requires !Contains(x, pat) && !Contains(y, pat)
    ensures !Contains(x + [c] + y, pat)
  {
    var s := x + [c] + y;
    forall j: nat | j <= |s|
      ensures !OccursAt(s, pat, j)
    {
      if j + |pat| <= |x| {
        WindowLeft(x, [c] + y, pat, j);
        assert s == x + ([c] + y);
      } else if j > |x| {
        WindowRight(x + [c], y, pat, j);
      } else if j + |pat| <= |s| {
        assert s[|x|] == c;
        assert pat[|x| - j] in pat;
        WindowMismatch(s, pat, j, |x| - j);
      }
    }
  }

  /** Appending text without the last character of `pat` cannot create an occurrence. */
  lemma {:induction false} NoneWithoutLastChar(x: string, y: string, pat: string)
    requires |pat| > 0 && pat[|pat| - 1] !in y
    requires !Contains(x, pat)
    ensures !Contains(x + y, pat)
  {
    var s := x + y;
    forall j: nat | j <= |s|
      ensures !OccursAt(s, pat, j)
    {
      if j + |pat| <= |x| {
        WindowLeft(x, y, pat, j);
      } else if j + |pat| <= |s| {
        assert s[j + |pat| - 1] == y[j + |pat| - 1 - |x|];
        WindowMismatch(s, pat, j, |pat| - 1);
      }
    }
  }

  /** Prepending text without the first character of `pat` cannot create an occurrence. */
  lemma {:induction false} NoneWithoutFirstChar(x: string, y: string, pat: string)
    requires |pat| > 0 && pat[0] !in x
    requires !Contains(y, pat)
    ensures !Contains(x + y, pat)
  {
    var s := x + y;
    forall j: nat | j <= |s|
      ensures !OccursAt(s, pat, j)
    {
      if j >= |x| {
        WindowRight(x, y, pat, j);
      } else if j + |pat| <= |s| {
        assert s[j] == x[j];
        WindowMismatch(s, pat, j, 0);
      }
    }
  }

  // ---------------------------------------------------------------------
  // Whitespace stripping
  // ---------------------------------------------------------------------

  /** The characters Python's `str.strip()` removes (`str.isspace`). */
  predicate IsSpace(c: char)
  {
    || c == ' ' || c == '\t' || c == '\n' || c == '\r'
    || c == '\U{0B}' || c == '\U{0C}'
    || ('\U{1C}' <= c <= '\U{1F}')
    || c == '\U{85}' || c == '\U{A0}' || c == '\U{1680}'
    || ('\U{2000}' <= c <= '\U{200A}')
    || c == '\U{2028}' || c == '\U{2029}' || c == '\U{202F}' || c == '\U{205F}' || c == '\U{3000}'
  }

  predicate AllSpace(s: string)
  {
    forall k :: 0 <= k < |s| ==> IsSpace(s[k])
  }

  /** Neither end of `s` is whitespace. */
  predicate Stripped(s: string)
  {
    |s| == 0 || (!IsSpace(s[0]) && !IsSpace(s[|s| - 1]))
  }

  /** Python's `s.lstrip()`. */
  function TrimStart(s: string): (r: string)
    ensures |r| <= |s| && r == s[|s| - |r|..]
    ensures |r| == 0 || !IsSpace(r[0])
  {
    if |s| > 0 && IsSpace(s[0]) then TrimStart(s[1..]) else s
  }

  /** Python's `s.rstrip()`. */
  function TrimEnd(s: string): (r: string)
    ensures |r| <= |s| && r == s[..|r|]
    ensures |r| == 0 || !IsSpace(r[|r| - 1])
  {
    if |s| > 0 && IsSpace(s[|s| - 1]) then TrimEnd(s[..|s| - 1]) else s
  }

  /** Python's `s.strip()`: the longest middle slice with no whitespace at either end. */
  function Strip(s: string): (r: string)
    ensures Stripped(r) && |r| <= |s|
  {
    var t := TrimStart(s);
    var r := TrimEnd(t);
    assert |r| == 0 || r[0] == t[0];
    r
  }

  /** `TrimStart` removes only whitespace. */
  lemma {:induction false} TrimStartCutsSpace(s: string)
    ensures AllSpace(s[..|s| - |TrimStart(s)|])
  {
    if |s| > 0 && IsSpace(s[0]) {
      TrimStartCutsSpace(s[1..]);
      var n := |s| - |TrimStart(s)|;
      assert s[..n] == [s[0]] + s[1..][..n - 1];
    }
  }

  /** `TrimEnd` removes only whitespace. */
  lemma {:induction false} TrimEndCutsSpace(s: string)
    ensures AllSpace(s[|TrimEnd(s)|..])
  {
    if |s| > 0 && IsSpace(s[|s| - 1]) {
      TrimEndCutsSpace(s[..|s| - 1]);
      var n := |TrimEnd(s)|;
      assert s[n..] == s[..|s| - 1][n..] + [s[|s| - 1]];
    }
  }

  /** `Strip(s)` is a slice of `s` with only whitespace cut off either side. */
  lemma {:induction false} StripCutsSpace(s: string) returns (i: nat)
    ensures i + |Strip(s)| <= |s| && Strip(s) == s[i..i + |Strip(s)|]
    ensures AllSpace(s[..i]) && AllSpace(s[i + |Strip(s)|..])
  {
    var t := TrimStart(s);
    i := |s| - |t|;
    var n := |Strip(s)|;
    assert t == s[i..];
    assert Strip(s) == TrimEnd(t);
    assert n <= |t|;
    assert Strip(s) == s[i..i + n] by {
      SuffixSlices(s, i, n);
    }
    assert AllSpace(s[..i]) by {
      TrimStartCutsSpace(s);
    }
    assert AllSpace(s[i + n..]) by {
      TrimEndCutsSpace(t);
      SuffixSlices(s, i, n);
    }
  }

  /** `Strip(s)` is a slice of `s`. */
  lemma {:induction false} StripIsSlice(s: string) returns (i: nat)
    ensures i + |Strip(s)| <= |s| && Strip(s) == s[i..i + |Strip(s)|]
  {
    i := StripCutsSpace(s);
  }

  /** Slicing a suffix is slicing the original, shifted. */
  lemma {:induction false} SuffixSlices(s: string, i: nat, n: nat)
    requires i + n <= |s|
    ensures s[i..][..n] == s[i..i + n] && s[i..][n..] == s[i + n..]
  {
  }

  lemma {:induction false} TrimStartPadded(pre: string, x: string)
    requires AllSpace(pre)
    ensures TrimStart(pre + x) == TrimStart(x)
  {
    if |pre| > 0 {
      assert (pre + x)[0] == pre[0];
      assert (pre + x)[1..] == pre[1..] + x;
      TrimStartPadded(pre[1..], x);
    } else {
      assert pre + x == x;
    }
  }

  lemma {:induction false} TrimEndPadded(x: string, post: string)
    requires AllSpace(post)
    ensures TrimEnd(x + post) == TrimEnd(x)
  {
    if |post| > 0 {
      assert (x + post)[|x + post| - 1] == post[|post| - 1];
      assert (x + post)[..|x + post| - 1] == x + post[..|post| - 1];
      TrimEndPadded(x, post[..|post| - 1]);
    } else {
      assert x + post == x;
    }
  }

  /** Stripping removes exactly the whitespace padding around already-stripped text. */
  lemma {:induction false} StripPadded(pre: string, t: string, post: string)
    requires AllSpace(pre) && AllSpace(post) && Stripped(t)
    ensures Strip(pre + t + post) == t
  {
    assert pre + t + post == pre + (t + post);
    TrimStartPadded(pre, t + post);
    if |t| == 0 {
      assert t + post == post + "";
      TrimStartPadded(post, "");
    } else {
      assert (t + post)[0] == t[0];
      assert TrimStart(t + post) == t + post;
      TrimEndPadded(t, post);
      assert t[|t| - 1] == t[|t| - 1];
      assert TrimEnd(t) == t;
    }
  }

  /** Already-stripped text is left alone. */
  lemma {:induction false} StripFixesStripped(s: string)
    requires Stripped(s)
    ensures Strip(s) == s
  {
    StripPadded("", s, "");
    assert "" + s + "" == s;
  }

  /** Stripping twice is stripping once. */
  lemma {:induction false} StripIdempotent(s: string)
    ensures Strip(Strip(s)) == Strip(s)
  {
    StripFixesStripped(Strip(s));
  }

  // ---------------------------------------------------------------------
  // The regular expression \[.*?\] under DOTALL
  // ---------------------------------------------------------------------

  /** Some `[` is followed, later in `s`, by a `]`. */
  predicate HasBracketPair(s: string)
  {
    exists i, j :: 0 <= i < j < |s| && s[i] == '[' && s[j] == ']'
  }

  /**
   * `re.search(r'\[.*?\]', s, re.DOTALL)`: the text from the first `[` to the
   * first `]` after it, both included.
   */
  function FirstBracketed(s: string): (r: Option<string>)
    ensures r.None? <==> !HasBracketPair(s)
    ensures r.Some? ==> exists i :: 0 <= i && i + |r.value| <= |s| && r.value == s[i..i + |r.value|]
                                    && '[' !in s[..i]
    ensures r.Some? ==> |r.value| >= 2 && r.value[0] == '[' && r.value[|r.value| - 1] == ']'
                        && ']' !in r.value[1..|r.value| - 1]
  {
    match IndexOf(s, '[')
    case None => None
    case Some(i) =>
      match IndexOf(s[i + 1..], ']')
      case None =>
        NoCloseAfter(s, i);
        None
      case Some(j) =>
        CloseAfter(s, i, j);
        Some(s[i..i + j + 2])
  }

  lemma {:induction false} NoCloseAfter(s: string, i: nat)
    requires i < |s| && s[i] == '[' && '[' !in s[..i]
    requires ']' !in s[i + 1..]
    ensures !HasBracketPair(s)
  {
    forall a, b | 0 <= a < b < |s| && s[a] == '['
      ensures s[b] != ']'
    {
      if b > i {
        assert s[i + 1..][b - i - 1] == s[b];
      }
    }
  }

  lemma {:induction false} CloseAfter(s: string, i: nat, j: nat)
    requires i < |s| && s[i] == '[' && '[' !in s[..i]
    requires j < |s| - i - 1 && s[i + 1..][j] == ']' && ']' !in s[i + 1..][..j]
    ensures HasBracketPair(s)
    ensures s[i..i + j + 2][0] == '[' && s[i..i + j + 2][j + 1] == ']'
    ensures ']' !in s[i..i + j + 2][1..j + 1]
  {
    assert s[i + j + 1] == ']';
    var inner := s[i..i + j + 2][1..j + 1];
    var scanned := s[i + 1..][..j];
    forall k | 0 <= k < j ensures inner[k] == scanned[k] { }
    assert inner == scanned;
  }

  /** Index of the first `c` in `s`: `FindFirst` for a one-character pattern. */
  function IndexOf(s: string, c: char): (r: Option<nat>)
    ensures r.None? <==> c !in s
    ensures r.Some? ==> r.value < |s| && s[r.value] == c && c !in s[..r.value]
  {
    var found := FindFirst(s, [c]);
    match found
    case None =>
      assert c !in s by {
        forall k | 0 <= k < |s| ensures s[k] != c { CharOccurs(s, c, k); }
      }
      found
    case Some(i) =>
      CharOccurs(s, c, i);
      assert c !in s[..i] by {
        forall k | 0 <= k < i ensures s[k] != c { CharOccurs(s, c, k); }
      }
      found
  }
}

=== FILE: Wrappers.dfy ===
/** Failure-carrying wrappers used throughout the model. */
module Wrappers {

  /** A value that may be missing; `None` stands for Python's `None` or a raised error. */
  datatype Option<+T> = None | Some(value: T)

  /** Either a value or an error message. */
  datatype Result<+R> = Success(value: R) | Failure(error: string)
}
